=== FILE: README.md ===
# Riyasewana scraper core, modelled in Dafny

This project models the crawl core of the Riyasewana vehicle-listing scraper:

- `RiyasewanaScraper.scrape_site`: pagination over makes and vehicle types, the seen-URL ledger, batching to storage.
- Its two record extractors:
  - `_extract_listing_details`, the overview record of a search-result item;
  - `_extract_post_details`, the detail record of a listing's own page.
- The two `DatabaseManager` operations the crawl uses:
  - `insert_listings_batch`: `INSERT OR IGNORE` into a table whose `post_url` is `UNIQUE`, with rollback on error;
  - `get_all_post_urls`.

The modules follow the program:

- `Text`: the string operations the scraper applies.
  - `str.strip()`, `str.lower()` and `in`.
  - The decimal page number inside the search URL.
- `Settings`: the configuration (`src/config.py`): base URL, vehicle types and makes, batch size.
- `Urls`: `safe_urljoin`, which is Python's `urljoin`. It is modelled by the reference resolution of section 5.2.2 of RFC 3986 in its non-strict form, which `urljoin` follows: a reference whose scheme is the base's is resolved as if it had none, and an empty authority (`//` followed by nothing, '/', '?' or '#') against a base that has an authority is dropped, as `urljoin` drops it. Where Python's recomposition differs from RFC 3986, the model follows the RFC; these cases are listed under "Left out".
- `Records`: a listing is a map from field name to text. `Merge` is the `{**overview, **details, 'make': …, 'type': …}` merge.
- `Extract`: the two extractors.
  - Each is a functional definition (`OverviewRecord`, `PostDetails`) plus a method with the source's loop (`ExtractListingDetails`, `ExtractPostDetails`), proved equal to it.
  - Lemmas state the classification and pairing rules.
- `Storage`: the `listings` table as the sequence of its rows in insertion order.
  - `InsertOrIgnore` defines the batch insert.
  - `Database` is a class whose `rows` field the methods update.
- `Crawl`: the whole crawl as a function of the remote site (`CrawlSite`), with the invariants it keeps and what a run guarantees.
- `Scraper`: the `RiyasewanaScraper` class.
  - Its `seenUrls` field is loaded from the database by the constructor.
  - `ScrapeSite` is the loop nest of `scrape_site`, split into one method per loop level. It is proved to end in exactly the state `CrawlSite` describes.

The remote site is an input (`Crawl.Site`):

- a map from search URL to what that page shows: load failure, no list container, or a list of items;
- a map from post URL to that page's table-cell texts, or a fetch failure;
- a page number beyond which no search page is served. This is an assumption about the site, not something the scraper enforces: the `while True` of `scrape_site` has no bound of its own, and a site that gives a new listing on every page keeps it paginating forever. `Crawl.Bounded` rules that site out, and that gives pagination its termination measure;
- the set of `insert_listings_batch` calls, numbered from 0, in which the database reports an error.

A search-result item is given as the texts and attributes the markup queries return: the title link's text and `href`, the image `src`, the date text and the box texts.

Some behaviour one might expect is not what the code does, and the model follows the code:

- **Location.** The first unclassified text box does not win `location`. Each qualifying box overwrites it, so the last one wins (src/riyasewana_scraper.py:177-178).
- **Missing `href`.** Missing elements do not all degrade to `""`. A missing `href` resolves to the base URL itself, and a missing image `src` to `"https:"` (src/riyasewana_scraper.py:154-160).
- **Failed detail page.** A failed detail page does not leave every detail field `""`. `_extract_post_details` returns `{}`, so the merged listing has no detail fields at all. They become `""` only in the stored row.
- **Freshness filter.** There is no date or freshness filter anywhere in the crawl, and the model has none.

## Model

| member | source | states |
|---|---|---|
| Text.Strip | src/riyasewana_scraper.py:171 | The result is the infix of the text left after removing white space, as `str.isspace` defines it, from both ends. Everything cut away is white space, and the result starts and ends with a non-space character. |
| Text.StripIdempotent | src/riyasewana_scraper.py:171 | Stripping an already stripped text changes nothing. |
| Text.Lower | src/riyasewana_scraper.py:172 | Lower-casing keeps the length, leaves no upper-case ASCII letter, and changes only upper-case letters, to their lower-case form. |
| Text.NatToString | src/riyasewana_scraper.py:68 | The page number renders as a non-empty string of decimal digits, with no leading zero unless the number is 0. |
| Text.ParseNatToString | src/riyasewana_scraper.py:68 | Reading the rendered page number back gives the number. |
| Text.NatToStringInjective | src/riyasewana_scraper.py:68 | Distinct page numbers render differently. |
| Urls.SchemeLength | src/utils.py:32 | A scheme is recognised only as a non-empty run of scheme characters that starts with a letter and is followed by ':'. |
| Urls.Parse | src/utils.py:32 | A reference has a scheme exactly when it starts with one, and the scheme is that prefix. |
| Urls.ParseHierarchy | src/utils.py:32 | An authority is present exactly when the text after the scheme starts with "//". Otherwise the path is a prefix of that text. |
| Urls.ParseTail | src/utils.py:32 | The path is the prefix of the remaining text up to the first '?' or '#': it holds neither character, and the character right after it is one of them. |
| Urls.ParseRecompose | src/utils.py:32 | Splitting a reference into its five components and recomposing them gives the same text back. |
| Urls.ParsePlainTail | src/utils.py:32 | The converse for a tail: a path without '?' or '#', followed by an optional query without '#', parses back into that path and query, with no fragment. |
| Urls.ParseOrigin | src/utils.py:32 | A scheme, ':', "//" and a host without '/', '?' or '#' parse as that scheme and host, with an empty path and no query or fragment. |
| Urls.ParseOriginTail | src/utils.py:32 | Appending nothing or an absolute path to such an origin keeps its scheme and host, and the appended text is split into path, query and fragment. |
| Urls.Directory | src/utils.py:32 | The directory of a path is its longest prefix ending in '/'. |
| Urls.SchemePrefix | src/utils.py:32 | A scheme followed by ':' is recognised as the scheme, whatever follows it. |
| Urls.ResolveReference | src/utils.py:32 | Resolution keeps the reference's fragment. The result takes the reference's scheme when it differs from the base's, and the base's scheme otherwise. An empty reference authority against a base with an authority is treated as absent (`KeepsAuthority`). |
| Urls.Resolve | src/utils.py:32 | An empty base gives the reference, and an empty reference gives the base unchanged. |
| Urls.ResolveAbsolute | src/utils.py:32 | A reference with a scheme resolves to itself when that scheme differs from the base's or its authority stands: it is non-empty, or the base has none. |
| Urls.ResolveNetworkPath | src/utils.py:32 | A network-path reference `//host/p` resolves to the base's scheme, ':' and the reference, when its host is non-empty or the base has no authority. |
| Urls.ResolveEmptyAuthority | src/utils.py:32 | Against a base with an authority, `//` followed by a path, query or fragment resolves exactly as that text alone: the base's authority replaces the empty one. |
| Urls.ResolveAbsolutePath | src/utils.py:32 | Against a base with an authority, an absolute-path reference keeps the base's scheme and authority and replaces everything after them. |
| Urls.ResolveKeepsScheme | src/utils.py:32 | Against a base that has a scheme, every non-empty reference resolves to URL text that itself starts with a scheme, so the post URL is absolute. |
| Records.Merge | src/riyasewana_scraper.py:107-112 | The merged record holds the keys of both records and the search context. `make`/`type` come from the context, detail fields override overview fields of the same name, and other overview fields are kept. |
| Records.MergeKeepsPostUrl | src/riyasewana_scraper.py:107-112 | Merging with a detail record, which has only detail fields or none, keeps the overview's natural key. |
| Extract.ClassifyBox | src/riyasewana_scraper.py:171-178 | One box sets at most one of the three fields, to its stripped text, and never sets the location to nothing or to the date text. `Extract.ClassifyStep` states which rule wins. |
| Extract.ClassifyBoxes | src/riyasewana_scraper.py:166-178 | Classifying all boxes in document order, from three empty fields, never leaves the date text as the location. The lemmas below characterise each field. |
| Extract.MileageIsLastMatch | src/riyasewana_scraper.py:170-173 | Mileage is the stripped text of the last box that mentions "km" in any case, or `""` when there is none. |
| Extract.PriceIsLastMatch | src/riyasewana_scraper.py:174-175 | Price is the last box that mentions "rs" or "negotiable" but not "km", or `""` when there is none. |
| Extract.LocationIsLastMatch | src/riyasewana_scraper.py:169-178 | Each qualifying box overwrites the location: it equals `LastLocation`, the last non-empty, unclassified box that differs from the date, or `""`. |
| Extract.LocationSetIffQualifyingBox | src/riyasewana_scraper.py:176-178 | The location is set exactly when some box is non-empty, unclassified and not the date text, in both directions. |
| Extract.LocationFrom | src/riyasewana_scraper.py:176-178 | A set location comes from a box that qualifies for it, and the lemma names that box. |
| Extract.QualifyingBoxSetsLocation | src/riyasewana_scraper.py:176-178 | A qualifying box anywhere in the list leaves the location non-empty. |
| Extract.LocationIsUnclassifiedBox | src/riyasewana_scraper.py:176-178 | A non-empty location is the stripped text of some box that mentions neither mileage nor price, and it differs from the date, the final price and the final mileage. |
| Extract.FieldsMentionTheirRule | src/riyasewana_scraper.py:170-175 | A non-empty mileage mentions "km", and a non-empty price mentions a price word and not "km". |
| Extract.ClassifyStep | src/riyasewana_scraper.py:171-178 | Unfolds the definition of `ClassifyBoxes` by one box, rule by rule; a proof step for the lemmas above. |
| Extract.ExtractListingDetails | src/riyasewana_scraper.py:141-184 | The method's loop over the boxes builds exactly the overview record: the stripped title, the resolved post and image URLs, the stripped date, and the boxes classified in document order. |
| Extract.OverviewRecord | src/riyasewana_scraper.py:146-178 | An overview record has exactly its seven fields, whatever the item lacks. `Extract.ExtractListingDetails` is proved equal to it. |
| Extract.MissingHrefGivesBase | src/riyasewana_scraper.py:154-155 | A missing title link, or one without `href`, makes the natural key the base URL, not `""`. |
| Extract.AbsoluteHrefIsKey | src/riyasewana_scraper.py:154-155 | An absolute `href` is kept verbatim as the natural key, when its scheme differs from the base's or it names a non-empty host. |
| Extract.ImageUrlResolution | src/riyasewana_scraper.py:157-160 | A missing `src` gives `"https:"`, and a protocol-relative `src` gets the `https:` prefix. |
| Extract.HttpsPrefix | src/riyasewana_scraper.py:160 | Resolving against `"https:"`: the empty reference gives `"https:"`, and `//host/path` gets the prefix. |
| Extract.PostDetails | src/riyasewana_scraper.py:186-220 | A loaded page gives exactly the seven detail fields, and a failed load gives the empty record. |
| Extract.PairMap | src/riyasewana_scraper.py:201-207 | The lower-cased name of each of the first `n` cell pairs is a key of the map. `Extract.PairMapLookup` gives the converse and the value. |
| Extract.LabelMap | src/riyasewana_scraper.py:202-205 | The name of every complete cell pair is a key of the page's map. `Extract.TrailingCellDropped` shows that an odd trailing cell does not count. |
| Extract.PairMapLookup | src/riyasewana_scraper.py:201-207 | A lower-cased label is in the map exactly when some cell pair carries it. Its value is the value cell of the last such pair. |
| Extract.TrailingCellDropped | src/riyasewana_scraper.py:202-205 | A trailing unpaired cell does not change the map. |
| Extract.DetailFieldIsLastPair | src/riyasewana_scraper.py:210-216 | Each detail field is the value of the last pair whose lower-cased label is that field's page label, or `""` when no pair carries the label. |
| Extract.ExtractPostDetails | src/riyasewana_scraper.py:186-220 | The method's pairing loop and projection compute exactly the detail record, and `{}` when the page failed to load. |
| Storage.ColumnsDistinct | src/db_manager.py:110-113 | The `INSERT` names sixteen distinct columns, so each value lands in exactly one of them, and the fifteenth is `post_url`, the table's unique column. |
| Storage.Values | src/db_manager.py:100-107 | A row has one value per column of the `INSERT`, with `post_url` at position 14. |
| Storage.ToRow | src/db_manager.py:99-114 | Each tuple value is the record's value under the column of the same name, or `""` when the key is missing, so the row's `post_url` is the record's natural key. |
| Storage.RowsOf | src/db_manager.py:98-107 | The tuples of a batch are one per listing, in batch order. |
| Storage.StoredUrls | src/db_manager.py:134 | The stored URLs are exactly the non-empty `post_url`s present in the table. |
| Storage.InsertOne | src/db_manager.py:109-115 | One `INSERT OR IGNORE` keeps every old row in place, adds at most one row, and leaves the row's URL stored either way. |
| Storage.InsertOrIgnore | src/db_manager.py:109-115 | `executemany` of `INSERT OR IGNORE` only appends: the old rows stay in place and at most one row per batch row is added. `Storage.InsertOrIgnoreSpec` states the rest. |
| Storage.InsertOneSpec | src/db_manager.py:109-115 | One `INSERT OR IGNORE` keeps the constraint and the old rows, adds at most this row, and adds its URL to the stored set. |
| Storage.InsertOrIgnoreSpec | src/db_manager.py:109-115 | A batch insert keeps `post_url` unique, keeps every old row in place, adds only rows of the batch, and stores exactly the old URLs plus the batch's URLs. |
| Storage.InsertedCount | src/db_manager.py:117-118 | The number of rows added is the number of distinct batch URLs not already stored. |
| Storage.InsertAllPresent | src/db_manager.py:109-115 | A batch whose URLs are all stored leaves the table unchanged. |
| Storage.InsertIdempotent | src/db_manager.py:109-115 | Inserting the same batch twice stores it once. |
| Storage.FirstOccurrenceStored | src/db_manager.py:109-115 | The first batch row with a URL not yet stored is the row stored under that URL. |
| Storage.NotYetStored | src/db_manager.py:109-115 | A URL held by neither the table nor the batch is not stored. |
| Storage.StoredUrlsAfterInsert | src/db_manager.py:109-115 | After a batch, the non-empty stored URLs are the old ones plus the batch's non-empty ones. |
| Storage.Database.constructor | src/db_manager.py:68 | A database holds a table that satisfies the `UNIQUE` constraint on `post_url`. |
| Storage.Database.InsertListingsBatch | src/db_manager.py:79-123 | An empty batch or a database error leaves the table unchanged and returns 0. Otherwise the table becomes the insert-or-ignore of the batch's rows, and the result is the number of rows added. The constraint holds throughout. |
| Storage.Database.BuildTuples | src/db_manager.py:98-107 | The tuple loop builds exactly the batch's rows. |
| Storage.Database.GetAllPostUrls | src/db_manager.py:125-137 | Returns exactly the non-empty stored URLs, or the empty set when the query fails. |
| Crawl.Flush | src/riyasewana_scraper.py:119-121 | Handing the batch over empties it and records it as flushed. The table gets the batch's rows by insert-or-ignore, unless this call is one where the database fails, in which case it stays as it was. The ledger, listings, visits and fetches are unchanged. |
| Crawl.ProcessItem | src/riyasewana_scraper.py:92-124 | An item counts as new exactly when its post URL is non-empty and not in the ledger. A new item adds its URL to the ledger, fetches its post page once, and appends the merge of its overview, its details, make and type to the listings. Any other item leaves the state unchanged. No search page is visited. |
| Crawl.ProcessItems | src/riyasewana_scraper.py:91-124 | A page's items give at most one new listing each and visit no search page. |
| Crawl.ProcessItemListing | src/riyasewana_scraper.py:96-116 | One item appends exactly one listing when it counts as new and none otherwise; the ledger only grows. |
| Crawl.ProcessItemsListings | src/riyasewana_scraper.py:91-127 | A page's listings are appended after the earlier ones, and the new-listing counter that drives the stop at line 127 equals the number appended. The ledger only grows. |
| Crawl.ProcessItemSeen | src/riyasewana_scraper.py:96-108 | After one item, the item is stale: its post URL, if it has one, is in the ledger. |
| Crawl.StaleGrows | src/riyasewana_scraper.py:97 | A stale item stays stale as the ledger grows. |
| Crawl.ProcessItemsStaleAt | src/riyasewana_scraper.py:91-116 | After a page, each of its items is stale, whether this page added its post URL or the URL was there before. |
| Crawl.ProcessItemsStale | src/riyasewana_scraper.py:91-116 | After a page, every item with a post URL has that URL in the ledger. |
| Crawl.NoNewListingNoChange | src/riyasewana_scraper.py:96-127 | A page that counts no new listing leaves the crawl state as it was. |
| Crawl.AfterPage | src/riyasewana_scraper.py:65-124 | Scraping page `page` appends exactly one visit, at that page's search URL. |
| Crawl.Continues | src/riyasewana_scraper.py:71-131 | Pagination goes on only after a page that loaded with a list container; `Crawl.StalePageStops` and `Crawl.EmptyPageStops` state the other stopping cases. |
| Crawl.ContinuesBounded | src/riyasewana_scraper.py:126-131 | Pagination goes on only after a page the site serves, so page numbers stay bounded. |
| Crawl.PagesFrom | src/riyasewana_scraper.py:63-131 | Defines the pagination of one type and make from a page on. `Crawl.PagesFromVisits`, `Crawl.PagesFromInv` and the stopping lemmas characterise it. |
| Crawl.CrawlTypes | src/riyasewana_scraper.py:61-132 | Defines the crawl of one make's types, in order. `Crawl.CrawlTypesInv` and `Crawl.CrawlTypesVisits` characterise it. |
| Crawl.CrawlMakes | src/riyasewana_scraper.py:60-132 | Defines the crawl of the makes, in order, each with every type. `Crawl.CrawlMakesInv` and `Crawl.CrawlMakesVisits` characterise it. |
| Crawl.CrawlSite | src/riyasewana_scraper.py:49-139 | The whole of `scrape_site`, ending with the insert of the remainder, so that no listing is left pending. `Crawl.CrawlLedger`, `Crawl.CrawlBatches`, `Crawl.CrawlTable` and `Crawl.CrawlVisitOrder` state what a run guarantees. |
| Crawl.PostUrls | src/riyasewana_scraper.py:101-105 | The fetched post URLs are those of the listings, in order. |
| Crawl.ProcessItemsStep | src/riyasewana_scraper.py:92-116 | Unfolds the definition of `ProcessItems` at any item position; a proof step for the loop in `Scraper`. |
| Crawl.FlushTable | src/riyasewana_scraper.py:119-121 | A flush keeps the constraint, the old rows and every stored URL, and stores the batch's URLs unless the database fails. |
| Crawl.FlushKeepsRows | src/riyasewana_scraper.py:119-121 | A flush keeps the constraint and every row stored before it. |
| Crawl.TableInvFlush | src/riyasewana_scraper.py:119-121 | A flush keeps the constraint and the old rows, and stores the batch unless the database fails. |
| Crawl.BatchInvFlush | src/riyasewana_scraper.py:119-121 | Flushing a full batch keeps "the flushed batches followed by the buffer are the listings" and "every flushed batch is full". |
| Crawl.LedgerInvAdd | src/riyasewana_scraper.py:97-116 | Adding a new URL and its listing keeps the ledger consistent: the URL is marked seen, fetched once, and distinct from earlier listings. |
| Crawl.ProcessItemInv | src/riyasewana_scraper.py:92-124 | Processing one item keeps the crawl invariant: ledger, batching and table. |
| Crawl.ProcessItemsInv | src/riyasewana_scraper.py:91-124 | Processing a page's items keeps the crawl invariant. |
| Crawl.PagesFromInv | src/riyasewana_scraper.py:65-131 | Paginating one type and make keeps the crawl invariant. |
| Crawl.CrawlTypesInv | src/riyasewana_scraper.py:61-131 | Crawling the types of one make keeps the crawl invariant. |
| Crawl.CrawlMakesInv | src/riyasewana_scraper.py:60-132 | Crawling the makes keeps the crawl invariant. |
| Crawl.StartInv | src/riyasewana_scraper.py:55-56 | The crawl invariant holds at the start, for a table that satisfies its constraint. |
| Crawl.ConcatFull | src/riyasewana_scraper.py:119-121 | Full batches hold batch-size records each. |
| Crawl.CrawlMakesStartInv | src/riyasewana_scraper.py:55-132 | The crawl invariant holds right before the final insert. |
| Crawl.CrawlLedger | src/riyasewana_scraper.py:97-114 | Over a whole run, the returned listings have non-empty, pairwise distinct post URLs, none known at the start. The ledger only grows, ending as the initial set plus these URLs. Each listing's page is fetched exactly once, in order, and no other page is fetched. |
| Crawl.CrawlBatches | src/riyasewana_scraper.py:114-136 | Over a whole run, the flushed batches concatenate in order to exactly the returned listings, and the buffer ends empty. Every batch but the last holds exactly the batch size, and the last is non-empty and no larger. |
| Crawl.CrawlTable | src/riyasewana_scraper.py:119-136 | Over a whole run, the table keeps `post_url` unique and its old rows as a prefix. The URLs of every batch the database did not fail are stored. |
| Crawl.NoFailureStoresEveryListing | src/riyasewana_scraper.py:114-136 | With a database that never fails, every returned listing's URL is stored. |
| Crawl.InBatch | src/riyasewana_scraper.py:114-121 | Every listing of the concatenation lies in some flushed batch. |
| Crawl.TypePairs | src/riyasewana_scraper.py:61 | The pairs of one make are its types in configured order. |
| Crawl.Pairs | src/riyasewana_scraper.py:60-61 | There is one pair per make and type. |
| Crawl.PairsAt | src/riyasewana_scraper.py:60-61 | With `t` types, make `i` with type `j` is searched at position `i * t + j` of the crawl order. |
| Crawl.PairsOrder | src/riyasewana_scraper.py:60-61 | The pairs are make-major and type-minor: with `t` types, position `k` holds make `k / t` with type `k % t`. |
| Crawl.PageRun | src/riyasewana_scraper.py:63-68 | A run of visits covers consecutive page numbers, each at its search URL. |
| Crawl.PageRunCons | src/riyasewana_scraper.py:63-131 | Unfolds the definition of `PageRun` by its first visit; a proof step for the visit-order lemmas. |
| Crawl.PagesFromVisits | src/riyasewana_scraper.py:63-131 | Paginating one type and make visits pages `page`, `page + 1`, … in order, at least one, each at its search URL. |
| Crawl.VisitRunsExtend | src/riyasewana_scraper.py:60-131 | Appending one pair's run of pages keeps the visits in pair order. |
| Crawl.CrawlTypesVisits | src/riyasewana_scraper.py:61-131 | A make's types are crawled in order, each as one run of pages from 1. |
| Crawl.CrawlMakesVisits | src/riyasewana_scraper.py:60-131 | The makes are crawled in order, each with every type in order. |
| Crawl.CrawlVisitOrder | src/riyasewana_scraper.py:60-68 | A run visits, make-major and type-minor, pages 1, 2, … of every pair, at least page 1, each at `base/search/{type}/{make}` with `?page=n` only for n > 1. |
| Crawl.PageUrlInjective | src/riyasewana_scraper.py:66-68 | Different page numbers have different search URLs. |
| Crawl.PageUrlParts | src/riyasewana_scraper.py:66-68 | For a base that is an origin and a type and make that are single path segments, the search URL parses as the base's scheme and host, the path `/search/<type>/<make>`, the query `page=<n>` from page 2 on and none on page 1, and no fragment. |
| Settings.SiteBaseIsOrigin | src/config.py:10 | The base URL is an origin: scheme `https`, host `riyasewana.com`, nothing after them. With `Crawl.PageUrlParts`, every search URL is on that host. |
| Settings.SiteListsWellFormed | src/config.py:12-13 | Every configured type and make is a single path segment, none is listed twice, so each pair is crawled once, and the batch size (line 33) is positive. |
| Crawl.StaleItems | src/riyasewana_scraper.py:96-99 | Items whose URL is empty or seen change nothing and count no new listing. |
| Crawl.FreshPageContinues | src/riyasewana_scraper.py:126-131 | The converse of `StalePageStops`: a page with an item whose post URL is new to the ledger counts a new listing, so pagination goes on to the next page. |
| Crawl.StalePageStops | src/riyasewana_scraper.py:126-131 | A page after the first whose items are all stale ends the pair's pagination. On page 1 it does not, and page 2 follows. |
| Crawl.EmptyPageStops | src/riyasewana_scraper.py:71-89 | A failed load, a missing list container or an empty item list ends the pair's pagination after that visit. |
| Scraper.RiyasewanaScraper.constructor | src/riyasewana_scraper.py:36-47 | The scraper is built with the configured constants, and its ledger holds the stored URLs, or nothing when that query fails. |
| Scraper.RiyasewanaScraper.ScrapeItem | src/riyasewana_scraper.py:92-124 | One item, imperatively: the ledger, lists, buffer and table end as `Crawl.ProcessItem` says, and the flag says whether a listing was added. |
| Scraper.RiyasewanaScraper.ScrapeItems | src/riyasewana_scraper.py:91-124 | The item loop over one page ends as `Crawl.ProcessItems` says, with its new-listing count. |
| Scraper.RiyasewanaScraper.ScrapePages | src/riyasewana_scraper.py:63-131 | The `while True` pagination loop ends in the state `Crawl.PagesFrom` describes from page 1. |
| Scraper.RiyasewanaScraper.ScrapeSite | src/riyasewana_scraper.py:49-139 | `scrape_site`: the returned listings, the ledger, the table, the flushed batches and the visits are exactly those of `Crawl.CrawlSite`. So every `Crawl.Crawl*` guarantee holds for the method. |

## Left out

- Page loading through Selenium and markup queries through BeautifulSoup (`find`, `find_all`, `select`, `get_text`) are not modelled. A search page arrives as its items' texts and attributes, and a post page as its cell texts. Cell texts are taken as already stripped, as `get_text(strip=True)` returns them.
- Random polite delays, logging and the progress bar are not modelled. They are timing and side effects only.
- The database connection, `create_table`, `fetch_all_listings`, `close` and `__del__` are not modelled. The table starts as any sequence of rows that satisfies the constraint.
- The `id` and `created_at` columns are not modelled. They are assigned by the server and never read by the core.
- Selector matching (src/config.py:18-26) is not modelled. The values of the selectors are library behaviour.
- The date/freshness filter is not modelled, because the code has none.
- `Urls.Resolve`: the model follows RFC 3986 where Python's `urljoin` departs from it:
  - Dot-segment removal, scheme lower-casing, and the stripping of control characters and white space are not modelled.
  - A base with a scheme but no authority, such as the image base `"https:"`, with a path reference (`/x.jpg` or `x.jpg`): Python gives `"https:///x.jpg"`, with an empty authority, and the model gives `"https:/x.jpg"` or `"https:x.jpg"`.
  - An empty query or fragment (a trailing `?` or `#`) is dropped by Python and kept by the model.
  - When a relative path is merged with the base path, Python removes empty segments (`buy//x` becomes `/buy/x`); the model keeps them.
  - A scheme outside Python's list of schemes that allow relative references makes Python return the reference unchanged. The model resolves it like any other.
  - `urljoin` raises `ValueError` for a malformed bracketed host, such as an unbalanced `[` or `]` in the authority (`//[x`) or a non-IP address inside brackets. The model's resolution never fails; it returns a URL for these references too.

  The model is exact for the references the scraper meets against its site base `https://riyasewana.com` when their host, if any, is well formed: empty, absolute with a host, `//host/p`, `//` with an empty host (which gives way to the base's, `Urls.ResolveEmptyAuthority`), `/p` without a trailing empty query or fragment, and relative paths without dot segments or empty segments.
- `Urls.ResolveAbsolutePath`: stated only for a base with an authority. For a base without one, Python inserts an empty authority, which the model does not, as above.
- `Urls.ResolveAbsolute` and `Extract.AbsoluteHrefIsKey`: stated only for a reference whose scheme differs from the base's or whose authority stands: a non-empty host, or any authority against a base without one. A same-scheme reference without a host, such as `https:buy/x`, is resolved against the base (`Urls.ResolveReference`), and so is a same-scheme reference with an empty host, such as `https:///x`, against a base with a host.
- `Urls.ResolveNetworkPath`: stated for a non-empty host, or for a base without an authority. An empty host against a base with one is replaced by the base's (`Urls.ResolveEmptyAuthority`), so `///x` against `https://riyasewana.com` gives `https://riyasewana.com/x`. A trailing empty `?` or `#` of the reference is dropped by Python, so the verbatim result holds only for references without one.
- `Text.Lower`: lower-casing is modelled for ASCII letters only. Non-ASCII letters are kept as they are.
- The `except` at src/riyasewana_scraper.py:122-124 never fires in the model. `_extract_post_details` catches every error itself, and database errors are caught inside `insert_listings_batch`.
- `Extract.OverviewRecord`: the `AttributeError` handler at src/riyasewana_scraper.py:180-181 never fires in the model, because every missing element is an explicit `None` input. The general handler at lines 182-183 does fire in the source when `urljoin` raises `ValueError` for a malformed bracketed host, and the model leaves that failure out:
  - An `href` such as `//[x` at line 155 leaves a record with only `title`, so the item has no post URL and is skipped at line 97. The model resolves the `href` and scrapes the item.
  - An image `src` such as `//[x` at line 160 leaves a record with only `title` and `post_url`, which is still scraped. The model gives the record all seven fields.
- `Crawl.Bounded`: pagination is modelled only for a site that serves no search page beyond `maxPage`. The `while True` of src/riyasewana_scraper.py:63-131 has no bound of its own, so against a site that gives a new listing on every page the scraper never stops; the model assumes that site away.
- The order of the database's error outcomes is a parameter: the `failingInserts` numbers of `Crawl.Site`. It is not derived from SQLite.
- `Scraper.RiyasewanaScraper.ScrapeSite`: the item and pagination loops of `scrape_site` are written as the methods `ScrapeItem`, `ScrapeItems` and `ScrapePages`, not inline. The behaviour is the same.
- `Crawl.FullBatch`: a batch size of 0 is read as 1, since a batch is handed over once it holds at least one record. The configured size is 50.
- `get_all_post_urls` on error and `insert_listings_batch` on error are modelled as boolean inputs. The exception itself is not.

=== FILE: config.dfy ===
/**
 * The scraper's configuration: the site's base URL, the vehicle types and
 * makes it searches, and the number of listings handed to the database in one
 * batch.
 */
module Settings {
  import opened Wrappers
  import opened Urls

  /** What the scraper is configured with: base URL, types, makes and batch size. */
  datatype Config = Config(baseUrl: string, vehicleTypes: seq<string>, vehicleMakes: seq<string>, batchSize: nat)

  /** The configuration the scraper is built with. */
  const SiteConfig: Config :=
    Config("https://riyasewana.com",
           ["cars", "vans", "suvs", "crew-cabs", "pickups"],
           ["toyota", "nissan", "suzuki", "micro", "mitsubishi", "mahindra", "mazda",
            "daihatsu", "hyundai", "kia", "bmw", "perodua", "tata"],
           50)

  /** A path segment of a search URL: non-empty, without '/', '?' or '#'. */
  predicate IsSegment(s: string) {
    s != [] && Avoids(s, {'/', '?', '#'})
  }

  /** The base URL is an origin: the `https` scheme and the site's host, with nothing after them. */
  lemma {:induction false} SiteBaseIsOrigin()
    ensures Parse(SiteConfig.baseUrl) == Reference(Some("https"), Some("riyasewana.com"), "", None, None)
  {
    var base := SiteConfig.baseUrl;
    assert base == "https://riyasewana.com";
    assert base == "https" + ":" + "//" + "riyasewana.com";
    assert IsAlpha('h') && IsSchemeChar('h') && IsSchemeChar('t') && IsSchemeChar('p') && IsSchemeChar('s');
    assert Avoids("riyasewana.com", {'/', '?', '#'});
    ParseOrigin("https", "riyasewana.com");
  }

  /**
   * Every configured type and make is one path segment, none is listed twice
   * (so each pair is crawled once), and a batch holds at least one listing.
   */
  lemma {:induction false} SiteListsWellFormed()
    ensures forall i :: 0 <= i < |SiteConfig.vehicleTypes| ==> IsSegment(SiteConfig.vehicleTypes[i])
    ensures forall i :: 0 <= i < |SiteConfig.vehicleMakes| ==> IsSegment(SiteConfig.vehicleMakes[i])
    ensures forall i, j :: 0 <= i < j < |SiteConfig.vehicleTypes| ==> SiteConfig.vehicleTypes[i] != SiteConfig.vehicleTypes[j]
    ensures forall i, j :: 0 <= i < j < |SiteConfig.vehicleMakes| ==> SiteConfig.vehicleMakes[i] != SiteConfig.vehicleMakes[j]
    ensures SiteConfig.batchSize > 0
  {
  }
}

=== FILE: crawl.dfy ===
/**
 * The crawl performed by `scrape_site`, as a function of the remote site: for
 * every make and, inside it, every vehicle type, the search pages are visited
 * from page 1 on; each new listing (non-empty post URL, not yet seen) has its
 * own page fetched, is merged with the search context, recorded, and buffered
 * for the database, which receives the buffer whenever it reaches the batch
 * size and once more at the end.
 */
module Crawl {
  import opened Text
  import opened Records
  import opened Extract
  import opened Storage
  import opened Wrappers
  import opened Urls
  import opened Settings

  /**
   * A search page as the scraper sees it: the load failed, the page has no
   * listing container, or the container holds these items (possibly none).
   */
  datatype ListingPage = LoadFailed | NoList | Items(items: seq<ListingItem>)

  /**
   * The remote side. `pages` and `posts` are what the site serves at each
   * URL (an unknown search URL shows no list, an unknown post URL fails);
   * `failingInserts` numbers, from 0, the calls of `insert_listings_batch` in
   * which the database reports an error.
   */
  datatype Site = Site(
    pages: map<string, ListingPage>,
    posts: map<string, PostPage>,
    maxPage: nat,
    failingInserts: set<nat>)

  function PageAt(site: Site, url: string): ListingPage {
    if url in site.pages then site.pages[url] else NoList
  }

  function PostAt(site: Site, url: string): PostPage {
    if url in site.posts then site.posts[url] else FetchFailed
  }

  /** The search URL of one page of results for a type and a make. */
  function PageUrl(base: string, vtype: string, make: string, page: nat): string {
    var url := base + "/search/" + vtype + "/" + make;
    if page > 1 then url + "?page=" + NatToString(page) else url
  }

  /** The site serves no search page numbered beyond `maxPage`. */
  ghost predicate Bounded(site: Site, base: string) {
    forall t, m, n :: n > site.maxPage ==> PageUrl(base, t, m, n) !in site.pages
  }

  /** One visit of a search page. */
  datatype Visit = Visit(make: string, vtype: string, page: nat, url: string)

  /**
   * The crawl so far: the seen-URL ledger, the new listings in order, the
   * pending batch, the batches handed to the database, the table, the
   * search pages visited and the post pages fetched.
   */
  datatype State = State(
    seen: set<string>,
    listings: seq<Record>,
    batch: seq<Record>,
    flushed: seq<seq<Record>>,
    table: seq<Row>,
    visits: seq<Visit>,
    fetched: seq<string>)

  function Start(seen0: set<string>, table0: seq<Row>): State {
    State(seen0, [], [], [], table0, [], [])
  }

  /** The post URLs of some records, in order. */
  function PostUrls(rs: seq<Record>): (urls: seq<string>)
    ensures |urls| == |rs|
    ensures forall i :: 0 <= i < |rs| ==> urls[i] == PostUrl(rs[i])
  {
    seq(|rs|, i requires 0 <= i < |rs| => PostUrl(rs[i]))
  }

  /** The post URLs of some records, as a set. */
  function UrlSet(rs: seq<Record>): set<string> {
    set i | 0 <= i < |rs| :: PostUrl(rs[i])
  }

  function Concat(bs: seq<seq<Record>>): seq<Record> {
    if bs == [] then [] else Concat(bs[..|bs| - 1]) + bs[|bs| - 1]
  }

  /** The size of every full batch: a batch is handed over once it holds `batchSize` records, and never empty. */
  function FullBatch(cfg: Config): nat {
    if cfg.batchSize == 0 then 1 else cfg.batchSize
  }

  /**
   * `insert_listings_batch(current_batch_for_db)` followed by emptying the
   * buffer: the rows are inserted unless this call is one where the database
   * fails, in which case the table is left as it was.
   */
  function Flush(site: Site, st: State): (r: State)
    ensures r.batch == [] && r.flushed == st.flushed + [st.batch]
    ensures r.seen == st.seen && r.listings == st.listings && r.visits == st.visits && r.fetched == st.fetched
    ensures r.table == if |st.flushed| in site.failingInserts then st.table else InsertOrIgnore(st.table, RowsOf(st.batch))
  {
    st.(batch := [],
        flushed := st.flushed + [st.batch],
        table := if |st.flushed| in site.failingInserts then st.table else InsertOrIgnore(st.table, RowsOf(st.batch)))
  }

  /**
   * One search-result item: skipped when its post URL is empty or already
   * seen; otherwise the URL is marked seen, its post page fetched, the merged
   * record appended to the listings and to the batch, and the batch handed to
   * the database once it holds `batchSize` records. The flag says whether a
   * listing was added.
   */
  function ProcessItem(cfg: Config, site: Site, make: string, vtype: string, st: State, item: ListingItem)
    : (r: (State, bool))
    ensures r.0.visits == st.visits
    ensures !r.1 ==> r.0 == st
    ensures var url := PostUrl(OverviewRecord(cfg.baseUrl, item));
            && (r.1 <==> url != "" && url !in st.seen)
            && (r.1 ==> && r.0.seen == st.seen + {url}
                        && r.0.fetched == st.fetched + [url]
                        && r.0.listings == st.listings + [Merge(OverviewRecord(cfg.baseUrl, item), PostDetails(PostAt(site, url)), make, vtype)])
  {
    var overview := OverviewRecord(cfg.baseUrl, item);
    var url := PostUrl(overview);
    if url == "" || url in st.seen then (st, false)
    else
      var full := Merge(overview, PostDetails(PostAt(site, url)), make, vtype);
      var st1 := st.(seen := st.seen + {url}, fetched := st.fetched + [url],
                     listings := st.listings + [full], batch := st.batch + [full]);
      (if |st1.batch| >= cfg.batchSize then Flush(site, st1) else st1, true)
  }

  /** The items of one page, in order, with the number of new listings they gave. */
  function ProcessItems(cfg: Config, site: Site, make: string, vtype: string, st: State, items: seq<ListingItem>)
    : (r: (State, nat))
    ensures r.0.visits == st.visits
    ensures r.1 <= |items|
    decreases |items|
  {
    if items == [] then (st, 0)
    else
      var (st1, n) := ProcessItems(cfg, site, make, vtype, st, items[..|items| - 1]);
      var (st2, added) := ProcessItem(cfg, site, make, vtype, st1, items[|items| - 1]);
      (st2, if added then n + 1 else n)
  }

  /** The state once page `page` of a type and make is visited and its items, if any, are scraped. */
  function AfterPage(cfg: Config, site: Site, make: string, vtype: string, st: State, page: nat): (r: State)
    ensures r.visits == st.visits + [Visit(make, vtype, page, PageUrl(cfg.baseUrl, vtype, make, page))]
  {
    var url := PageUrl(cfg.baseUrl, vtype, make, page);
    var st1 := st.(visits := st.visits + [Visit(make, vtype, page, url)]);
    match PageAt(site, url)
    case Items(items) => if items == [] then st1 else ProcessItems(cfg, site, make, vtype, st1, items).0
    case _ => st1
  }

  /**
   * Whether pagination goes on after page `page`: the page loaded, has a list
   * with items, and, unless it is the first page, gave a new listing.
   */
  predicate Continues(cfg: Config, site: Site, make: string, vtype: string, st: State, page: nat): (r: bool)
    ensures r ==> PageAt(site, PageUrl(cfg.baseUrl, vtype, make, page)).Items?
  {
    var url := PageUrl(cfg.baseUrl, vtype, make, page);
    var st1 := st.(visits := st.visits + [Visit(make, vtype, page, url)]);
    match PageAt(site, url)
    case Items(items) => items != [] && !(ProcessItems(cfg, site, make, vtype, st1, items).1 == 0 && page > 1)
    case _ => false
  }

  /** A page after which pagination goes on is one the site serves, so it is numbered at most `maxPage`. */
  lemma {:induction false} ContinuesBounded(cfg: Config, site: Site, make: string, vtype: string, st: State, page: nat)
    requires Bounded(site, cfg.baseUrl)
    requires Continues(cfg, site, make, vtype, st, page)
    ensures page <= site.maxPage
  {
    assert PageUrl(cfg.baseUrl, vtype, make, page) in site.pages;
  }

  /**
   * Pagination for one type and make from `page` on: the page is visited;
   * a failed load, a missing list or an empty list ends it, and so does a
   * page after the first that gave no new listing; otherwise the next page
   * follows.
   */
  function PagesFrom(cfg: Config, site: Site, make: string, vtype: string, st: State, page: nat): State
    requires Bounded(site, cfg.baseUrl)
    decreases site.maxPage + 1 - page
  {
    var next := AfterPage(cfg, site, make, vtype, st, page);
    if Continues(cfg, site, make, vtype, st, page) then
      ContinuesBounded(cfg, site, make, vtype, st, page);
      PagesFrom(cfg, site, make, vtype, next, page + 1)
    else next
  }

  /** The types of one make, in order. */
  function CrawlTypes(cfg: Config, site: Site, make: string, st: State, types: seq<string>): State
    requires Bounded(site, cfg.baseUrl)
    decreases |types|
  {
    if types == [] then st
    else PagesFrom(cfg, site, make, types[|types| - 1], CrawlTypes(cfg, site, make, st, types[..|types| - 1]), 1)
  }

  /** The makes, in order, each with every configured type. */
  function CrawlMakes(cfg: Config, site: Site, st: State, makes: seq<string>): State
    requires Bounded(site, cfg.baseUrl)
    decreases |makes|
  {
    if makes == [] then st
    else CrawlTypes(cfg, site, makes[|makes| - 1], CrawlMakes(cfg, site, st, makes[..|makes| - 1]), cfg.vehicleTypes)
  }

  /** The whole of `scrape_site`, ending with the insert of a non-empty remainder. */
  function CrawlSite(cfg: Config, site: Site, seen0: set<string>, table0: seq<Row>): (r: State)
    requires Bounded(site, cfg.baseUrl)
    ensures r.batch == []
  {
    var st := CrawlMakes(cfg, site, Start(seen0, table0), cfg.vehicleMakes);
    if st.batch != [] then Flush(site, st) else st
  }

  /** The first `k + 1` items of a page are the first `k` and then item `k`. */
  lemma {:induction false} ProcessItemsStep(cfg: Config, site: Site, make: string, vtype: string, st: State,
                         items: seq<ListingItem>, k: nat)
    requires k < |items|
    ensures ProcessItems(cfg, site, make, vtype, st, items[..k + 1]).0
            == ProcessItem(cfg, site, make, vtype, ProcessItems(cfg, site, make, vtype, st, items[..k]).0, items[k]).0
    ensures ProcessItems(cfg, site, make, vtype, st, items[..k + 1]).1
            == ProcessItems(cfg, site, make, vtype, st, items[..k]).1
               + if ProcessItem(cfg, site, make, vtype, ProcessItems(cfg, site, make, vtype, st, items[..k]).0, items[k]).1
                 then 1 else 0
  {
    assert items[..k + 1][..k] == items[..k];
  }

  /**
   * The listings of a page are appended after the earlier ones, the counter
   * that drives the stop at the end of a page is the number appended, and
   * the ledger only grows.
   */
  lemma {:induction false} ProcessItemsListings(cfg: Config, site: Site, make: string, vtype: string,
                                                st: State, items: seq<ListingItem>)
    ensures var r := ProcessItems(cfg, site, make, vtype, st, items);
            && |st.listings| <= |r.0.listings| && r.0.listings[..|st.listings|] == st.listings
            && r.1 == |r.0.listings| - |st.listings|
            && st.seen <= r.0.seen
    decreases |items|
  {
    if items != [] {
      var r0 := ProcessItems(cfg, site, make, vtype, st, items[..|items| - 1]);
      var last := ProcessItem(cfg, site, make, vtype, r0.0, items[|items| - 1]);
      var r := ProcessItems(cfg, site, make, vtype, st, items);
      assert r.0 == last.0 && r.1 == r0.1 + if last.1 then 1 else 0;
      ProcessItemsListings(cfg, site, make, vtype, st, items[..|items| - 1]);
      ProcessItemListing(cfg, site, make, vtype, r0.0, items[|items| - 1]);
      assert r.0.listings[..|st.listings|] == r0.0.listings[..|st.listings|] by {
        assert r.0.listings[..|r0.0.listings|] == r0.0.listings;
      }
    }
  }

  /** One item appends one listing when it counts as new and none otherwise, and the ledger only grows. */
  lemma {:induction false} ProcessItemListing(cfg: Config, site: Site, make: string, vtype: string,
                                              st: State, item: ListingItem)
    ensures var r := ProcessItem(cfg, site, make, vtype, st, item);
            && |r.0.listings| == |st.listings| + (if r.1 then 1 else 0)
            && r.0.listings[..|st.listings|] == st.listings
            && st.seen <= r.0.seen
  {
    var r := ProcessItem(cfg, site, make, vtype, st, item);
    if r.1 {
      assert r.0.listings[..|st.listings|] == st.listings;
    }
  }

  /** After one item, the item is stale, and the ledger only grew. */
  lemma {:induction false} ProcessItemSeen(cfg: Config, site: Site, make: string, vtype: string,
                                           st: State, item: ListingItem)
    ensures var r := ProcessItem(cfg, site, make, vtype, st, item);
            st.seen <= r.0.seen && Stale(cfg, r.0, item)
  {
  }

  /** A stale item stays stale as the ledger grows. */
  lemma {:induction false} StaleGrows(cfg: Config, st: State, st2: State, item: ListingItem)
    requires st.seen <= st2.seen && Stale(cfg, st, item)
    ensures Stale(cfg, st2, item)
  {
  }

  /** After a page, its `i`-th item is stale, whether this page added its post URL or the URL was there before. */
  lemma {:induction false} ProcessItemsStaleAt(cfg: Config, site: Site, make: string, vtype: string,
                                               st: State, items: seq<ListingItem>, i: nat)
    requires i < |items|
    ensures Stale(cfg, ProcessItems(cfg, site, make, vtype, st, items).0, items[i])
    decreases |items|
  {
    var prefix := items[..|items| - 1];
    var r0 := ProcessItems(cfg, site, make, vtype, st, prefix);
    var last := ProcessItem(cfg, site, make, vtype, r0.0, items[|items| - 1]);
    var r := ProcessItems(cfg, site, make, vtype, st, items);
    assert r.0 == last.0;
    ProcessItemSeen(cfg, site, make, vtype, r0.0, items[|items| - 1]);
    if i < |items| - 1 {
      ProcessItemsStaleAt(cfg, site, make, vtype, st, prefix, i);
      assert items[i] == prefix[i];
      StaleGrows(cfg, r0.0, last.0, items[i]);
    }
    StaleGrows(cfg, last.0, r.0, items[i]);
  }

  /**
   * After a page, every item of it is stale: its post URL, if it has one, is
   * in the ledger.
   */
  lemma {:induction false} ProcessItemsStale(cfg: Config, site: Site, make: string, vtype: string,
                                             st: State, items: seq<ListingItem>)
    ensures forall i :: 0 <= i < |items| ==> Stale(cfg, ProcessItems(cfg, site, make, vtype, st, items).0, items[i])
  {
    forall i | 0 <= i < |items|
      ensures Stale(cfg, ProcessItems(cfg, site, make, vtype, st, items).0, items[i])
    {
      ProcessItemsStaleAt(cfg, site, make, vtype, st, items, i);
    }
  }

  /** A page that gives no new listing leaves the state as it was. */
  lemma {:induction false} NoNewListingNoChange(cfg: Config, site: Site, make: string, vtype: string,
                                                st: State, items: seq<ListingItem>)
    requires ProcessItems(cfg, site, make, vtype, st, items).1 == 0
    ensures ProcessItems(cfg, site, make, vtype, st, items).0 == st
    decreases |items|
  {
    if items != [] {
      NoNewListingNoChange(cfg, site, make, vtype, st, items[..|items| - 1]);
    }
  }

  // ---------------------------------------------------------------------
  // The crawl invariant

  /** The ledger: seen is the initial set plus the listings, which are new, distinct and each fetched once. */
  ghost predicate LedgerInv(seen0: set<string>, st: State) {
    && st.seen == seen0 + UrlSet(st.listings)
    && (forall i :: 0 <= i < |st.listings| ==> PostUrl(st.listings[i]) != "" && PostUrl(st.listings[i]) !in seen0)
    && (forall i, j :: 0 <= i < j < |st.listings| ==> PostUrl(st.listings[i]) != PostUrl(st.listings[j]))
    && st.fetched == PostUrls(st.listings)
  }

  /** The buffer: every listing went to exactly one batch, in order; every handed-over batch was full. */
  ghost predicate BatchInv(cfg: Config, st: State) {
    && Concat(st.flushed) + st.batch == st.listings
    && (st.batch == [] || |st.batch| < cfg.batchSize)
    && (forall k :: 0 <= k < |st.flushed| ==> |st.flushed[k]| == FullBatch(cfg))
  }

  /** The table: the constraint holds, old rows stay, every batch the database accepted is stored. */
  ghost predicate TableInv(site: Site, table0: seq<Row>, st: State) {
    && UniquePostUrls(st.table)
    && |table0| <= |st.table| && st.table[..|table0|] == table0
    && (forall k :: 0 <= k < |st.flushed| && k !in site.failingInserts ==> UrlSet(st.flushed[k]) <= UrlsOf(st.table))
  }

  ghost predicate Inv(cfg: Config, site: Site, seen0: set<string>, table0: seq<Row>, st: State) {
    LedgerInv(seen0, st) && BatchInv(cfg, st) && TableInv(site, table0, st)
  }

  /** The rows of a batch carry its post URLs. */
  lemma {:induction false} RowUrls(rs: seq<Record>)
    ensures UrlsOf(RowsOf(rs)) == UrlSet(rs)
  {
    var rows := RowsOf(rs);
    forall u | u in UrlSet(rs)
      ensures u in UrlsOf(rows)
    {
      var i :| 0 <= i < |rs| && PostUrl(rs[i]) == u;
      assert rows[i].postUrl == u;
    }
  }

  /** A flush keeps the constraint and the old rows, keeps every stored URL, and stores the batch unless it fails. */
  lemma {:induction false} FlushTable(site: Site, table0: seq<Row>, st: State)
    requires UniquePostUrls(st.table) && |table0| <= |st.table| && st.table[..|table0|] == table0
    ensures var t := Flush(site, st).table;
            && UniquePostUrls(t) && |table0| <= |t| && t[..|table0|] == table0
            && UrlsOf(st.table) <= UrlsOf(t)
            && (|st.flushed| !in site.failingInserts ==> UrlSet(st.batch) <= UrlsOf(t))
  {
    FlushKeepsRows(site, table0, st);
    if |st.flushed| !in site.failingInserts {
      InsertOrIgnoreSpec(st.table, RowsOf(st.batch));
      RowUrls(st.batch);
    }
  }

  /** A flush keeps the constraint and every row stored before it. */
  lemma {:induction false} FlushKeepsRows(site: Site, table0: seq<Row>, st: State)
    requires UniquePostUrls(st.table) && |table0| <= |st.table| && st.table[..|table0|] == table0
    ensures var t := Flush(site, st).table;
            UniquePostUrls(t) && |table0| <= |t| && t[..|table0|] == table0
  {
    var t := Flush(site, st).table;
    if |st.flushed| !in site.failingInserts {
      InsertOrIgnoreSpec(st.table, RowsOf(st.batch));
      assert t[..|table0|] == t[..|st.table|][..|table0|];
    }
  }

  lemma {:induction false} TableInvFlush(cfg: Config, site: Site, table0: seq<Row>, st: State)
    requires TableInv(site, table0, st)
    ensures TableInv(site, table0, Flush(site, st))
  {
    var r := Flush(site, st);
    FlushTable(site, table0, st);
    forall k | 0 <= k < |r.flushed| && k !in site.failingInserts
      ensures UrlSet(r.flushed[k]) <= UrlsOf(r.table)
    {
      if k < |st.flushed| {
        assert r.flushed[k] == st.flushed[k];
      }
    }
  }

  lemma {:induction false} BatchInvFlush(cfg: Config, st: State)
    requires Concat(st.flushed) + st.batch == st.listings
    requires forall k :: 0 <= k < |st.flushed| ==> |st.flushed[k]| == FullBatch(cfg)
    requires |st.batch| == FullBatch(cfg)
    ensures forall site :: BatchInv(cfg, Flush(site, st))
  {
    forall site
      ensures BatchInv(cfg, Flush(site, st))
    {
      var r := Flush(site, st);
      assert r.flushed[..|r.flushed| - 1] == st.flushed;
      assert Concat(r.flushed) == Concat(st.flushed) + st.batch;
    }
  }

  lemma {:induction false} LedgerInvAdd(seen0: set<string>, st: State, full: Record, url: string)
    requires LedgerInv(seen0, st)
    requires PostUrl(full) == url && url != "" && url !in st.seen
    ensures LedgerInv(seen0, st.(seen := st.seen + {url}, fetched := st.fetched + [url],
                                 listings := st.listings + [full], batch := st.batch + [full]))
  {
    var ls := st.listings + [full];
    assert UrlSet(ls) == UrlSet(st.listings) + {url} by {
      assert forall i :: 0 <= i < |st.listings| ==> ls[i] == st.listings[i];
      assert ls[|st.listings|] == full;
    }
    assert PostUrls(ls) == PostUrls(st.listings) + [url];
    forall i | 0 <= i < |st.listings|
      ensures PostUrl(ls[i]) != url
    {
      assert PostUrl(st.listings[i]) in UrlSet(st.listings);
    }
  }

  /** Processing one item keeps the invariant. */
  lemma {:induction false} ProcessItemInv(cfg: Config, site: Site, seen0: set<string>, table0: seq<Row>,
                       make: string, vtype: string, st: State, item: ListingItem)
    requires Inv(cfg, site, seen0, table0, st)
    ensures Inv(cfg, site, seen0, table0, ProcessItem(cfg, site, make, vtype, st, item).0)
  {
    var overview := OverviewRecord(cfg.baseUrl, item);
    var url := PostUrl(overview);
    if url != "" && url !in st.seen {
      var details := PostDetails(PostAt(site, url));
      var full := Merge(overview, details, make, vtype);
      MergeKeepsPostUrl(overview, details, make, vtype);
      var st1 := st.(seen := st.seen + {url}, fetched := st.fetched + [url],
                     listings := st.listings + [full], batch := st.batch + [full]);
      assert LedgerInv(seen0, st1) by {
        LedgerInvAdd(seen0, st, full, url);
      }
      assert TableInv(site, table0, st1);
      assert Concat(st1.flushed) + st1.batch == st1.listings by {
        AppendAssoc(Concat(st.flushed), st.batch, [full]);
      }
      assert ProcessItem(cfg, site, make, vtype, st, item).0
             == if |st1.batch| >= cfg.batchSize then Flush(site, st1) else st1;
      if |st1.batch| >= cfg.batchSize {
        assert |st1.batch| == FullBatch(cfg);
        BatchInvFlush(cfg, st1);
        TableInvFlush(cfg, site, table0, st1);
      }
    }
  }

  /** Processing the items of a page keeps the invariant. */
  lemma {:induction false} ProcessItemsInv(cfg: Config, site: Site, seen0: set<string>, table0: seq<Row>,
                                           make: string, vtype: string, st: State, items: seq<ListingItem>)
    requires Inv(cfg, site, seen0, table0, st)
    ensures Inv(cfg, site, seen0, table0, ProcessItems(cfg, site, make, vtype, st, items).0)
    decreases |items|
  {
    if items != [] {
      ProcessItemsInv(cfg, site, seen0, table0, make, vtype, st, items[..|items| - 1]);
      var st1 := ProcessItems(cfg, site, make, vtype, st, items[..|items| - 1]).0;
      ProcessItemInv(cfg, site, seen0, table0, make, vtype, st1, items[|items| - 1]);
    }
  }

  /** Paginating one type and make keeps the invariant. */
  lemma {:induction false} PagesFromInv(cfg: Config, site: Site, seen0: set<string>, table0: seq<Row>,
                                        make: string, vtype: string, st: State, page: nat)
    requires Bounded(site, cfg.baseUrl)
    requires Inv(cfg, site, seen0, table0, st)
    ensures Inv(cfg, site, seen0, table0, PagesFrom(cfg, site, make, vtype, st, page))
    decreases site.maxPage + 1 - page
  {
    var url := PageUrl(cfg.baseUrl, vtype, make, page);
    var st1 := st.(visits := st.visits + [Visit(make, vtype, page, url)]);
    assert Inv(cfg, site, seen0, table0, st1);
    var pg := PageAt(site, url);
    if pg.Items? && pg.items != [] {
      ProcessItemsInv(cfg, site, seen0, table0, make, vtype, st1, pg.items);
    }
    if Continues(cfg, site, make, vtype, st, page) {
      ContinuesBounded(cfg, site, make, vtype, st, page);
      PagesFromInv(cfg, site, seen0, table0, make, vtype, AfterPage(cfg, site, make, vtype, st, page), page + 1);
    }
  }

  lemma {:induction false} CrawlTypesInv(cfg: Config, site: Site, seen0: set<string>, table0: seq<Row>,
                                         make: string, st: State, types: seq<string>)
    requires Bounded(site, cfg.baseUrl)
    requires Inv(cfg, site, seen0, table0, st)
    ensures Inv(cfg, site, seen0, table0, CrawlTypes(cfg, site, make, st, types))
    decreases |types|
  {
    if types != [] {
      CrawlTypesInv(cfg, site, seen0, table0, make, st, types[..|types| - 1]);
      PagesFromInv(cfg, site, seen0, table0, make, types[|types| - 1],
                   CrawlTypes(cfg, site, make, st, types[..|types| - 1]), 1);
    }
  }

  lemma {:induction false} CrawlMakesInv(cfg: Config, site: Site, seen0: set<string>, table0: seq<Row>,
                                         st: State, makes: seq<string>)
    requires Bounded(site, cfg.baseUrl)
    requires Inv(cfg, site, seen0, table0, st)
    ensures Inv(cfg, site, seen0, table0, CrawlMakes(cfg, site, st, makes))
    decreases |makes|
  {
    if makes != [] {
      CrawlMakesInv(cfg, site, seen0, table0, st, makes[..|makes| - 1]);
      CrawlTypesInv(cfg, site, seen0, table0, makes[|makes| - 1],
                    CrawlMakes(cfg, site, st, makes[..|makes| - 1]), cfg.vehicleTypes);
    }
  }

  /** The initial state satisfies the invariant when the table satisfies its constraint. */
  lemma {:induction false} StartInv(cfg: Config, site: Site, seen0: set<string>, table0: seq<Row>)
    requires UniquePostUrls(table0)
    ensures Inv(cfg, site, seen0, table0, Start(seen0, table0))
  {
    assert table0[..|table0|] == table0;
  }

  /** A sequence of full batches holds `size` records per batch. */
  lemma {:induction false} ConcatFull(bs: seq<seq<Record>>, size: nat)
    requires forall k :: 0 <= k < |bs| ==> |bs[k]| == size
    ensures |Concat(bs)| == |bs| * size
    decreases |bs|
  {
    if bs != [] {
      var n := |bs| - 1;
      ConcatFull(bs[..n], size);
      assert |Concat(bs)| == n * size + size;
      assert (n + 1) * size == n * size + size;
    }
  }

  /** The crawl up to its final insert keeps the invariant. */
  lemma {:induction false} CrawlMakesStartInv(cfg: Config, site: Site, seen0: set<string>, table0: seq<Row>)
    requires Bounded(site, cfg.baseUrl)
    requires UniquePostUrls(table0)
    ensures Inv(cfg, site, seen0, table0, CrawlMakes(cfg, site, Start(seen0, table0), cfg.vehicleMakes))
  {
    StartInv(cfg, site, seen0, table0);
    CrawlMakesInv(cfg, site, seen0, table0, Start(seen0, table0), cfg.vehicleMakes);
  }

  /**
   * What a whole run guarantees about its listings: their post URLs are
   * non-empty, none known before the run and no two alike; the ledger ends as
   * the initial set plus their URLs; each of their post pages was fetched
   * once, in order, and no other.
   */
  lemma {:induction false} CrawlLedger(cfg: Config, site: Site, seen0: set<string>, table0: seq<Row>)
    requires Bounded(site, cfg.baseUrl)
    requires UniquePostUrls(table0)
    ensures var st := CrawlSite(cfg, site, seen0, table0);
            && (forall i :: 0 <= i < |st.listings| ==> PostUrl(st.listings[i]) != "" && PostUrl(st.listings[i]) !in seen0)
            && (forall i, j :: 0 <= i < j < |st.listings| ==> PostUrl(st.listings[i]) != PostUrl(st.listings[j]))
            && st.seen == seen0 + UrlSet(st.listings)
            && st.fetched == PostUrls(st.listings)
  {
    CrawlMakesStartInv(cfg, site, seen0, table0);
  }

  /**
   * What a whole run guarantees about batching: every listing was handed to
   * the database exactly once, in order, in batches of exactly the batch size
   * but the last, which is smaller or equal and never empty, so the number of
   * inserts is the number of listings divided by the batch size, rounded up.
   */
  lemma {:induction false} CrawlBatches(cfg: Config, site: Site, seen0: set<string>, table0: seq<Row>)
    requires Bounded(site, cfg.baseUrl)
    requires UniquePostUrls(table0)
    ensures var st := CrawlSite(cfg, site, seen0, table0);
            && st.batch == [] && Concat(st.flushed) == st.listings
            && (forall k :: 0 <= k < |st.flushed| - 1 ==> |st.flushed[k]| == FullBatch(cfg))
            && (st.flushed != [] ==> 0 < |st.flushed[|st.flushed| - 1]| <= FullBatch(cfg))
            && |st.listings| <= |st.flushed| * FullBatch(cfg)
            && (st.flushed != [] ==> (|st.flushed| - 1) * FullBatch(cfg) < |st.listings|)
  {
    var st0 := CrawlMakes(cfg, site, Start(seen0, table0), cfg.vehicleMakes);
    var b := FullBatch(cfg);
    var n := |st0.flushed|;
    CrawlMakesStartInv(cfg, site, seen0, table0);
    assert |Concat(st0.flushed)| == n * b by {
      ConcatFull(st0.flushed, b);
    }
    if st0.batch != [] {
      var st := Flush(site, st0);
      assert Concat(st.flushed) == st.listings by {
        assert st.flushed[..n] == st0.flushed;
      }
      assert |st.listings| == n * b + |st0.batch|;
      MulSucc(n, b);
    } else if n > 0 {
      MulSucc(n - 1, b);
    }
  }

  lemma {:induction false} MulSucc(n: nat, b: nat)
    ensures (n + 1) * b == n * b + b
  {
  }

  /**
   * What a whole run guarantees about the table: it keeps its constraint and
   * its old rows, and every batch of an insert the database did not fail is
   * stored.
   */
  lemma {:induction false} CrawlTable(cfg: Config, site: Site, seen0: set<string>, table0: seq<Row>)
    requires Bounded(site, cfg.baseUrl)
    requires UniquePostUrls(table0)
    ensures var st := CrawlSite(cfg, site, seen0, table0);
            && UniquePostUrls(st.table) && |table0| <= |st.table| && st.table[..|table0|] == table0
            && (forall k :: 0 <= k < |st.flushed| && k !in site.failingInserts ==> UrlSet(st.flushed[k]) <= UrlsOf(st.table))
  {
    var st0 := CrawlMakes(cfg, site, Start(seen0, table0), cfg.vehicleMakes);
    CrawlMakesStartInv(cfg, site, seen0, table0);
    if st0.batch != [] {
      TableInvFlush(cfg, site, table0, st0);
    }
  }

  /** With a database that never fails, every new listing ends up in the table. */
  lemma {:induction false} NoFailureStoresEveryListing(cfg: Config, site: Site, seen0: set<string>, table0: seq<Row>)
    requires Bounded(site, cfg.baseUrl)
    requires UniquePostUrls(table0)
    requires site.failingInserts == {}
    ensures var st := CrawlSite(cfg, site, seen0, table0);
            forall i :: 0 <= i < |st.listings| ==> HasPostUrl(st.table, PostUrl(st.listings[i]))
  {
    CrawlBatches(cfg, site, seen0, table0);
    CrawlTable(cfg, site, seen0, table0);
    var st := CrawlSite(cfg, site, seen0, table0);
    forall i | 0 <= i < |st.listings|
      ensures HasPostUrl(st.table, PostUrl(st.listings[i]))
    {
      var k, j := InBatch(st.flushed, i);
      assert PostUrl(st.flushed[k][j]) in UrlSet(st.flushed[k]);
    }
  }

  /** Every record of a concatenation lies in one of its batches. */
  lemma {:induction false} InBatch(bs: seq<seq<Record>>, i: nat) returns (k: nat, j: nat)
    requires i < |Concat(bs)|
    ensures k < |bs| && j < |bs[k]| && bs[k][j] == Concat(bs)[i]
    decreases |bs|
  {
    var prefix := Concat(bs[..|bs| - 1]);
    if i < |prefix| {
      k, j := InBatch(bs[..|bs| - 1], i);
    } else {
      k, j := |bs| - 1, i - |prefix|;
    }
  }

  // ---------------------------------------------------------------------
  // Which search pages are visited, and in what order

  /** A type and a make: one run of pagination. */
  datatype Pair = Pair(make: string, vtype: string)

  /** The pairs of one make, in type order. */
  function TypePairs(make: string, types: seq<string>): (ps: seq<Pair>)
    ensures |ps| == |types|
    ensures forall j :: 0 <= j < |types| ==> ps[j] == Pair(make, types[j])
  {
    if types == [] then [] else TypePairs(make, types[..|types| - 1]) + [Pair(make, types[|types| - 1])]
  }

  /** All pairs, make by make, each make with every type in order. */
  function Pairs(makes: seq<string>, types: seq<string>): (ps: seq<Pair>)
    ensures |ps| == |makes| * |types|
  {
    if makes == [] then [] else Pairs(makes[..|makes| - 1], types) + TypePairs(makes[|makes| - 1], types)
  }

  /** Position `i * |types| + j` of the pairs holds make `i` with type `j`. */
  lemma {:induction false} PairsAt(makes: seq<string>, types: seq<string>, i: nat, j: nat)
    requires i < |makes| && j < |types|
    ensures i * |types| + j < |Pairs(makes, types)| && Pairs(makes, types)[i * |types| + j] == Pair(makes[i], types[j])
    decreases |makes|
  {
    var n := |makes| - 1;
    var prefix := makes[..n];
    var ps := Pairs(makes, types);
    var front := Pairs(prefix, types);
    assert ps == front + TypePairs(makes[n], types);
    var k := i * |types| + j;
    if i < n {
      PairsAt(prefix, types, i, j);
      assert k < |front| && prefix[i] == makes[i];
      assert ps[k] == front[k];
    } else {
      assert |front| == n * |types| && k == |front| + j;
      assert ps[k] == TypePairs(makes[n], types)[j];
    }
  }

  lemma {:induction false} MulLe(a: nat, b: nat, c: nat)
    requires a <= b
    ensures a * c <= b * c
  {
  }

  /**
   * The pairs are make-major and type-minor: position `k` holds make
   * `k / |types|` with type `k % |types|`.
   */
  lemma {:induction false} PairsOrder(makes: seq<string>, types: seq<string>)
    ensures var ps := Pairs(makes, types);
            forall k :: 0 <= k < |ps| ==> |types| > 0 && k / |types| < |makes| && ps[k] == Pair(makes[k / |types|], types[k % |types|])
  {
    var ps := Pairs(makes, types);
    forall k | 0 <= k < |ps|
      ensures |types| > 0 && k / |types| < |makes| && ps[k] == Pair(makes[k / |types|], types[k % |types|])
    {
      DivBound(k, |makes|, |types|);
      PairsAt(makes, types, k / |types|, k % |types|);
    }
  }

  /** A position below `m * t` splits into a row below `m` and a column below `t`. */
  lemma {:induction false} DivBound(k: nat, m: nat, t: nat)
    requires k < m * t
    ensures t > 0 && k / t < m && (k / t) * t + k % t == k && k % t < t
  {
    if t > 0 && k / t >= m {
      MulLe(m, k / t, t);
    }
  }

  /** The visits of pages `from`, `from + 1`, ... of one pair, `k` of them. */
  function PageRun(base: string, p: Pair, from: nat, k: nat): (v: seq<Visit>)
    ensures |v| == k
    ensures forall i :: 0 <= i < k ==> v[i] == Visit(p.make, p.vtype, from + i, PageUrl(base, p.vtype, p.make, from + i))
  {
    seq(k, i requires 0 <= i < k => Visit(p.make, p.vtype, from + i, PageUrl(base, p.vtype, p.make, from + i)))
  }

  /** The visits are, pair after pair, runs of pages 1, 2, ... of at least one page each. */
  ghost predicate VisitRuns(base: string, visits: seq<Visit>, pairs: seq<Pair>)
    decreases |pairs|
  {
    if pairs == [] then visits == []
    else exists k {:trigger PageRun(base, pairs[|pairs| - 1], 1, k)} :: && 1 <= k <= |visits|
                     && visits[|visits| - k..] == PageRun(base, pairs[|pairs| - 1], 1, k)
                     && VisitRuns(base, visits[..|visits| - k], pairs[..|pairs| - 1])
  }

  /** A run of pages from `page` is its first visit followed by the run from `page + 1`. */
  lemma {:induction false} PageRunCons(base: string, p: Pair, page: nat, k: nat)
    ensures PageRun(base, p, page, k + 1)
            == [Visit(p.make, p.vtype, page, PageUrl(base, p.vtype, p.make, page))] + PageRun(base, p, page + 1, k)
  {
    var lhs := PageRun(base, p, page, k + 1);
    var rhs := [Visit(p.make, p.vtype, page, PageUrl(base, p.vtype, p.make, page))] + PageRun(base, p, page + 1, k);
    forall i | 0 <= i < k + 1
      ensures lhs[i] == rhs[i]
    {
      if i > 0 {
        assert rhs[i] == PageRun(base, p, page + 1, k)[i - 1];
      }
    }
  }

  /** Pagination of one pair visits pages `page`, `page + 1`, ..., at least one. */
  lemma {:induction false} PagesFromVisits(cfg: Config, site: Site, make: string, vtype: string, st: State, page: nat)
    returns (k: nat)
    requires Bounded(site, cfg.baseUrl)
    ensures k >= 1
    ensures PagesFrom(cfg, site, make, vtype, st, page).visits
            == st.visits + PageRun(cfg.baseUrl, Pair(make, vtype), page, k)
    decreases site.maxPage + 1 - page
  {
    var p := Pair(make, vtype);
    var v := Visit(make, vtype, page, PageUrl(cfg.baseUrl, vtype, make, page));
    var next := AfterPage(cfg, site, make, vtype, st, page);
    if Continues(cfg, site, make, vtype, st, page) {
      ContinuesBounded(cfg, site, make, vtype, st, page);
      assert PagesFrom(cfg, site, make, vtype, st, page) == PagesFrom(cfg, site, make, vtype, next, page + 1);
      var k' := PagesFromVisits(cfg, site, make, vtype, next, page + 1);
      k := k' + 1;
      PageRunCons(cfg.baseUrl, p, page, k');
      AppendAssoc(st.visits, [v], PageRun(cfg.baseUrl, p, page + 1, k'));
    } else {
      assert PagesFrom(cfg, site, make, vtype, st, page) == next;
      k := 1;
      PageRunCons(cfg.baseUrl, p, page, 0);
    }
  }

  lemma {:induction false} AppendAssoc<T>(a: seq<T>, b: seq<T>, c: seq<T>)
    ensures a + (b + c) == a + b + c
  {
  }

  /** Appending one more run keeps the visits in runs. */
  lemma {:induction false} VisitRunsExtend(base: string, visits: seq<Visit>, pairs: seq<Pair>, p: Pair, k: nat)
    requires VisitRuns(base, visits, pairs) && k >= 1
    ensures VisitRuns(base, visits + PageRun(base, p, 1, k), pairs + [p])
  {
    var v := visits + PageRun(base, p, 1, k);
    var ps := pairs + [p];
    assert v[|v| - k..] == PageRun(base, p, 1, k);
    assert v[..|v| - k] == visits;
    assert ps[..|ps| - 1] == pairs && ps[|ps| - 1] == p;
    assert v[|v| - k..] == PageRun(base, ps[|ps| - 1], 1, k);
  }

  lemma {:induction false} CrawlTypesVisits(cfg: Config, site: Site, make: string, st: State,
                                            types: seq<string>, pairs: seq<Pair>)
    requires Bounded(site, cfg.baseUrl)
    requires VisitRuns(cfg.baseUrl, st.visits, pairs)
    ensures VisitRuns(cfg.baseUrl, CrawlTypes(cfg, site, make, st, types).visits, pairs + TypePairs(make, types))
    decreases |types|
  {
    if types == [] {
      assert pairs + TypePairs(make, types) == pairs;
    } else {
      var prefix := types[..|types| - 1];
      var vtype := types[|types| - 1];
      CrawlTypesVisits(cfg, site, make, st, prefix, pairs);
      var st1 := CrawlTypes(cfg, site, make, st, prefix);
      var k := PagesFromVisits(cfg, site, make, vtype, st1, 1);
      VisitRunsExtend(cfg.baseUrl, st1.visits, pairs + TypePairs(make, prefix), Pair(make, vtype), k);
      assert TypePairs(make, types) == TypePairs(make, prefix) + [Pair(make, vtype)];
      AppendAssoc(pairs, TypePairs(make, prefix), [Pair(make, vtype)]);
    }
  }

  lemma {:induction false} CrawlMakesVisits(cfg: Config, site: Site, st: State, makes: seq<string>, pairs: seq<Pair>)
    requires Bounded(site, cfg.baseUrl)
    requires VisitRuns(cfg.baseUrl, st.visits, pairs)
    ensures VisitRuns(cfg.baseUrl, CrawlMakes(cfg, site, st, makes).visits, pairs + Pairs(makes, cfg.vehicleTypes))
    decreases |makes|
  {
    if makes == [] {
      assert pairs + Pairs(makes, cfg.vehicleTypes) == pairs;
    } else {
      var prefix, make := makes[..|makes| - 1], makes[|makes| - 1];
      var types := cfg.vehicleTypes;
      CrawlMakesVisits(cfg, site, st, prefix, pairs);
      var st1 := CrawlMakes(cfg, site, st, prefix);
      assert CrawlMakes(cfg, site, st, makes) == CrawlTypes(cfg, site, make, st1, types);
      CrawlTypesVisits(cfg, site, make, st1, types, pairs + Pairs(prefix, types));
      assert Pairs(makes, types) == Pairs(prefix, types) + TypePairs(make, types);
      AppendAssoc(pairs, Pairs(prefix, types), TypePairs(make, types));
    }
  }

  /**
   * The order of a run: make by make, and inside a make type by type, the
   * search pages 1, 2, ... are visited, at least page 1 for every pair, each
   * at its search URL.
   */
  lemma {:induction false} CrawlVisitOrder(cfg: Config, site: Site, seen0: set<string>, table0: seq<Row>)
    requires Bounded(site, cfg.baseUrl)
    ensures VisitRuns(cfg.baseUrl, CrawlSite(cfg, site, seen0, table0).visits, Pairs(cfg.vehicleMakes, cfg.vehicleTypes))
  {
    CrawlMakesVisits(cfg, site, Start(seen0, table0), cfg.vehicleMakes, []);
    assert [] + Pairs(cfg.vehicleMakes, cfg.vehicleTypes) == Pairs(cfg.vehicleMakes, cfg.vehicleTypes);
  }

  /** Different page numbers (from 1 on) give different search URLs, so no page is visited twice in a run of a pair. */
  lemma {:induction false} PageUrlInjective(base: string, vtype: string, make: string, p: nat, q: nat)
    requires p >= 1 && q >= 1
    requires PageUrl(base, vtype, make, p) == PageUrl(base, vtype, make, q)
    ensures p == q
  {
    var prefix := base + "/search/" + vtype + "/" + make;
    if p > 1 && q > 1 {
      var tail := "?page=";
      var a := prefix + tail + NatToString(p);
      var b := prefix + tail + NatToString(q);
      assert a[|prefix + tail|..] == NatToString(p);
      assert b[|prefix + tail|..] == NatToString(q);
      NatToStringInjective(p, q);
    }
  }

  /**
   * The search URL of a page, parsed, for a base that is an origin: the
   * base's scheme and host, the path `/search/<type>/<make>`, the query
   * `page=<n>` from page 2 on and none on page 1, and no fragment.
   */
  lemma {:induction false} PageUrlParts(base: string, vtype: string, make: string, page: nat)
    requires var u := Parse(base); u.scheme.Some? && u.authority.Some? && u.path == [] && u.query.None? && u.fragment.None?
    requires IsSegment(vtype) && IsSegment(make)
    ensures Parse(PageUrl(base, vtype, make, page))
            == Parse(base).(path := "/search/" + vtype + "/" + make,
                            query := if page > 1 then Some("page=" + NatToString(page)) else None)
  {
    var stops := {'?', '#'};
    var path := "/search/" + vtype + "/" + make;
    assert Avoids("/search/", stops) && Avoids("/", stops);
    assert Avoids(vtype, stops) && Avoids(make, stops);
    AvoidsAppend("/search/", vtype, stops);
    AvoidsAppend("/search/" + vtype, "/", stops);
    AvoidsAppend("/search/" + vtype + "/", make, stops);
    var query := if page > 1 then Some("page=" + NatToString(page)) else None;
    if page > 1 {
      assert Avoids("page=", {'#'}) && Avoids(NatToString(page), {'#'});
      AvoidsAppend("page=", NatToString(page), {'#'});
    }
    var tail := path + if query.Some? then "?" + query.value else "";
    assert tail[0] == path[0] == '/';
    assert base + path == base + "/search/" + vtype + "/" + make;
    if page > 1 {
      var n := NatToString(page);
      assert tail == path + ("?page=" + n);
      assert base + tail == (base + path) + "?page=" + n;
    }
    ParseOriginTail(base, tail);
    ParsePlainTail(Parse(base).scheme, Parse(base).authority, path, query);
  }

  // ---------------------------------------------------------------------
  // When pagination stops

  /** An item that gives no new listing: its post URL is empty or already seen. */
  predicate Stale(cfg: Config, st: State, item: ListingItem) {
    var url := PostUrl(OverviewRecord(cfg.baseUrl, item));
    url == "" || url in st.seen
  }

  /** A page of stale items changes nothing and counts no new listing. */
  lemma {:induction false} StaleItems(cfg: Config, site: Site, make: string, vtype: string,
                                      st: State, items: seq<ListingItem>)
    requires forall i :: 0 <= i < |items| ==> Stale(cfg, st, items[i])
    ensures ProcessItems(cfg, site, make, vtype, st, items) == (st, 0)
    decreases |items|
  {
    if items != [] {
      StaleItems(cfg, site, make, vtype, st, items[..|items| - 1]);
    }
  }

  /**
   * A later page whose items are all stale ends the pagination of its pair
   * right there, while the first page never ends it for that reason: page 2
   * is visited next.
   */
  lemma {:induction false} StalePageStops(cfg: Config, site: Site, make: string, vtype: string, st: State, page: nat)
    requires Bounded(site, cfg.baseUrl)
    requires page >= 1
    requires var pg := PageAt(site, PageUrl(cfg.baseUrl, vtype, make, page));
             pg.Items? && pg.items != [] && forall i :: 0 <= i < |pg.items| ==> Stale(cfg, st, pg.items[i])
    ensures var url := PageUrl(cfg.baseUrl, vtype, make, page);
            var st1 := st.(visits := st.visits + [Visit(make, vtype, page, url)]);
            PagesFrom(cfg, site, make, vtype, st, page)
            == if page > 1 then st1 else PagesFrom(cfg, site, make, vtype, st1, 2)
  {
    var url := PageUrl(cfg.baseUrl, vtype, make, page);
    var st1 := st.(visits := st.visits + [Visit(make, vtype, page, url)]);
    var items := PageAt(site, url).items;
    forall i | 0 <= i < |items|
      ensures Stale(cfg, st1, items[i])
    {
      assert Stale(cfg, st, items[i]);
    }
    StaleItems(cfg, site, make, vtype, st1, items);
  }

  /** A failed load, a page without a list and an empty list each end the pagination of the pair. */
  lemma {:induction false} EmptyPageStops(cfg: Config, site: Site, make: string, vtype: string, st: State, page: nat)
    requires Bounded(site, cfg.baseUrl)
    requires var pg := PageAt(site, PageUrl(cfg.baseUrl, vtype, make, page));
             pg.LoadFailed? || pg.NoList? || pg.items == []
    ensures PagesFrom(cfg, site, make, vtype, st, page)
            == st.(visits := st.visits + [Visit(make, vtype, page, PageUrl(cfg.baseUrl, vtype, make, page))])
  {
  }

  /**
   * The converse of `StalePageStops`: a page with an item whose post URL is
   * new to the ledger counts a new listing, so pagination goes on to the
   * next page.
   */
  lemma {:induction false} FreshPageContinues(cfg: Config, site: Site, make: string, vtype: string, st: State, page: nat)
    requires Bounded(site, cfg.baseUrl)
    requires var pg := PageAt(site, PageUrl(cfg.baseUrl, vtype, make, page));
             pg.Items? && exists i :: 0 <= i < |pg.items| && !Stale(cfg, st, pg.items[i])
    ensures Continues(cfg, site, make, vtype, st, page)
    ensures PagesFrom(cfg, site, make, vtype, st, page)
            == PagesFrom(cfg, site, make, vtype, AfterPage(cfg, site, make, vtype, st, page), page + 1)
  {
    var url := PageUrl(cfg.baseUrl, vtype, make, page);
    var st1 := st.(visits := st.visits + [Visit(make, vtype, page, url)]);
    var items := PageAt(site, url).items;
    var i :| 0 <= i < |items| && !Stale(cfg, st, items[i]);
    var r := ProcessItems(cfg, site, make, vtype, st1, items);
    if r.1 == 0 {
      NoNewListingNoChange(cfg, site, make, vtype, st1, items);
      ProcessItemsStaleAt(cfg, site, make, vtype, st1, items, i);
    }
  }
}

=== FILE: extract.dfy ===
/**
 * The two record extractors of the Riyasewana scraper: the overview record of
 * one search-result item (`_extract_listing_details`) and the detail record of
 * one listing page (`_extract_post_details`). Markup queries are not modelled:
 * an item arrives as the texts and attributes its queries return, a listing
 * page as the texts of its table cells.
 */
module Extract {
  import opened Wrappers
  import opened Text
  import opened Urls
  import opened Records

  /** The title link of an item: its text and, when present, its `href`. */
  datatype Anchor = Anchor(text: string, href: Option<string>)

  /**
   * One search-result item: the link inside its heading, the `src` of its
   * image, the text of its date box and the texts of its text boxes, in
   * document order (texts as the element query returns them, unstripped).
   */
  datatype ListingItem = ListingItem(
    anchor: Option<Anchor>,
    imageSrc: Option<string>,
    dateText: Option<string>,
    boxTexts: seq<string>)

  /** The outcome of loading a listing's own page: its table-cell texts, or a failure. */
  datatype PostPage = FetchFailed | Loaded(cells: seq<string>)

  /** Mileage, price and location as classified from the text boxes so far. */
  datatype BoxFields = BoxFields(location: string, price: string, mileage: string)

  predicate MentionsMileage(txt: string) {
    Contains(Lower(txt), "km")
  }

  predicate MentionsPrice(txt: string) {
    Contains(Lower(txt), "rs") || Contains(Lower(txt), "negotiable")
  }

  /** Which rule a box text matches first. */
  datatype BoxKind = MileageBox | PriceBox | OtherBox

  function KindOf(txt: string): BoxKind {
    if MentionsMileage(txt) then MileageBox
    else if MentionsPrice(txt) then PriceBox
    else OtherBox
  }

  /**
   * One step of the classification: the first rule that matches the stripped
   * box text wins. A box sets at most one field, to its stripped text, and
   * never sets the location to nothing or to the date.
   */
  function ClassifyBox(f: BoxFields, date: string, box: string): (r: BoxFields)
    ensures r == f || r == f.(mileage := Strip(box)) || r == f.(price := Strip(box)) || r == f.(location := Strip(box))
    ensures r.location != f.location ==> r.location != "" && r.location != date
  {
    var txt := Strip(box);
    if MentionsMileage(txt) then f.(mileage := txt)
    else if MentionsPrice(txt) then f.(price := txt)
    else if txt != [] && txt != f.price && txt != f.mileage && txt != date then f.(location := txt)
    else f
  }

  /** The classification of all boxes, in document order, starting from three empty fields; the location is never the date. */
  function ClassifyBoxes(date: string, boxes: seq<string>): (r: BoxFields)
    ensures r.location == "" || r.location != date
    decreases |boxes|
  {
    if boxes == [] then BoxFields("", "", "")
    else ClassifyBox(ClassifyBoxes(date, boxes[..|boxes| - 1]), date, boxes[|boxes| - 1])
  }

  /** Reference definition: the last box mentioning "km", or `""`. */
  function LastMileage(boxes: seq<string>): string {
    if boxes == [] then ""
    else if KindOf(Strip(boxes[|boxes| - 1])) == MileageBox then Strip(boxes[|boxes| - 1])
    else LastMileage(boxes[..|boxes| - 1])
  }

  /** Reference definition: the last box mentioning a price and not "km", or `""`. */
  function LastPrice(boxes: seq<string>): string {
    if boxes == [] then ""
    else
      var txt := Strip(boxes[|boxes| - 1]);
      if KindOf(txt) == PriceBox then txt
      else LastPrice(boxes[..|boxes| - 1])
  }

  /**
   * Reference definition: the last non-empty box that mentions neither
   * mileage nor price and is not the date text, or `""`. The source also
   * skips a text equal to the current price or mileage, but such a text
   * mentions a price or "km" itself, so that test never decides anything.
   */
  function LastLocation(date: string, boxes: seq<string>): string {
    if boxes == [] then ""
    else
      var txt := Strip(boxes[|boxes| - 1]);
      if KindOf(txt) == OtherBox && txt != [] && txt != date then txt
      else LastLocation(date, boxes[..|boxes| - 1])
  }

  /** A later box that mentions "km" overwrites an earlier one: mileage is the last such box. */
  lemma {:induction false} MileageIsLastMatch(date: string, boxes: seq<string>)
    ensures ClassifyBoxes(date, boxes).mileage == LastMileage(boxes)
    decreases |boxes|
  {
    if boxes != [] {
      MileageIsLastMatch(date, boxes[..|boxes| - 1]);
    }
  }

  /** The price is the last box that mentions "rs" or "negotiable" and not "km". */
  lemma {:induction false} PriceIsLastMatch(date: string, boxes: seq<string>)
    ensures ClassifyBoxes(date, boxes).price == LastPrice(boxes)
    decreases |boxes|
  {
    if boxes != [] {
      PriceIsLastMatch(date, boxes[..|boxes| - 1]);
    }
  }

  /**
   * A location, once set, is the stripped text of some box that mentions
   * neither mileage nor price and differs from the date; so it never equals
   * the mileage, the price or the date.
   */
  lemma {:induction false} LocationIsUnclassifiedBox(date: string, boxes: seq<string>)
    ensures var f := ClassifyBoxes(date, boxes);
            f.location == [] ||
            (&& KindOf(f.location) == OtherBox
             && f.location != date && f.location != f.price && f.location != f.mileage
             && exists i :: 0 <= i < |boxes| && f.location == Strip(boxes[i]))
    decreases |boxes|
  {
    if boxes != [] {
      var prefix := boxes[..|boxes| - 1];
      LocationIsUnclassifiedBox(date, prefix);
      ClassifyStep(date, boxes);
      FieldsMentionTheirRule(date, boxes);
      var f0 := ClassifyBoxes(date, prefix);
      var f := ClassifyBoxes(date, boxes);
      var txt := Strip(boxes[|boxes| - 1]);
      if f.location != [] {
        if f.location == f0.location {
          var i :| 0 <= i < |prefix| && f0.location == Strip(prefix[i]);
          assert boxes[i] == prefix[i];
        } else {
          assert f.location == txt && KindOf(txt) == OtherBox;
          assert f.location == Strip(boxes[|boxes| - 1]);
        }
      }
    }
  }

  /**
   * Each qualifying box overwrites the location: it is the last non-empty,
   * unclassified box that differs from the date, and `""` only when there is
   * no such box.
   */
  lemma {:induction false} LocationIsLastMatch(date: string, boxes: seq<string>)
    ensures ClassifyBoxes(date, boxes).location == LastLocation(date, boxes)
    decreases |boxes|
  {
    if boxes != [] {
      var prefix := boxes[..|boxes| - 1];
      LocationIsLastMatch(date, prefix);
      FieldsMentionTheirRule(date, prefix);
      ClassifyStep(date, boxes);
    }
  }

  /** Whether box `i` qualifies as a location: non-empty, unclassified and not the date text. */
  predicate LocationBox(date: string, boxes: seq<string>, i: nat)
    requires i < |boxes|
  {
    var txt := Strip(boxes[i]);
    KindOf(txt) == OtherBox && txt != [] && txt != date
  }

  /** The location is set exactly when some box qualifies for it. */
  lemma {:induction false} LocationSetIffQualifyingBox(date: string, boxes: seq<string>)
    ensures LastLocation(date, boxes) != "" <==> exists i :: 0 <= i < |boxes| && LocationBox(date, boxes, i)
  {
    if LastLocation(date, boxes) != "" {
      var i := LocationFrom(date, boxes);
      assert LocationBox(date, boxes, i);
    }
    if exists i :: 0 <= i < |boxes| && LocationBox(date, boxes, i) {
      var i :| 0 <= i < |boxes| && LocationBox(date, boxes, i);
      QualifyingBoxSetsLocation(date, boxes, i);
    }
  }

  /** A set location comes from a qualifying box. */
  lemma {:induction false} LocationFrom(date: string, boxes: seq<string>) returns (i: nat)
    requires LastLocation(date, boxes) != ""
    ensures i < |boxes| && LocationBox(date, boxes, i)
    decreases |boxes|
  {
    var prefix := boxes[..|boxes| - 1];
    if LocationBox(date, boxes, |boxes| - 1) {
      i := |boxes| - 1;
    } else {
      i := LocationFrom(date, prefix);
      assert prefix[i] == boxes[i];
    }
  }

  /** A qualifying box leaves the location set. */
  lemma {:induction false} QualifyingBoxSetsLocation(date: string, boxes: seq<string>, i: nat)
    requires i < |boxes| && LocationBox(date, boxes, i)
    ensures LastLocation(date, boxes) != ""
    decreases |boxes|
  {
    if !LocationBox(date, boxes, |boxes| - 1) {
      var prefix := boxes[..|boxes| - 1];
      assert prefix[i] == boxes[i];
      QualifyingBoxSetsLocation(date, prefix, i);
    }
  }

  /** A non-empty mileage is a "km" text and a non-empty price a price text. */
  lemma {:induction false} FieldsMentionTheirRule(date: string, boxes: seq<string>)
    ensures var f := ClassifyBoxes(date, boxes);
            (f.mileage == [] || KindOf(f.mileage) == MileageBox) && (f.price == [] || KindOf(f.price) == PriceBox)
    decreases |boxes|
  {
    if boxes != [] {
      var prefix := boxes[..|boxes| - 1];
      FieldsMentionTheirRule(date, prefix);
      ClassifyStep(date, boxes);
    }
  }

  /** Unfolds the classification of a non-empty box list by one box. */
  lemma {:induction false} ClassifyStep(date: string, boxes: seq<string>)
    requires boxes != []
    ensures var f0 := ClassifyBoxes(date, boxes[..|boxes| - 1]);
            var txt := Strip(boxes[|boxes| - 1]);
            var f := ClassifyBoxes(date, boxes);
            match KindOf(txt)
            case MileageBox => f == f0.(mileage := txt)
            case PriceBox => f == f0.(price := txt)
            case OtherBox =>
              f == if txt != [] && txt != f0.price && txt != f0.mileage && txt != date then f0.(location := txt) else f0
  {
  }

  /** Classifying one more box of a prefix is one `ClassifyBox` step. */
  lemma {:induction false} ClassifyPrefix(date: string, boxes: seq<string>, i: nat)
    requires i < |boxes|
    ensures ClassifyBoxes(date, boxes[..i + 1]) == ClassifyBox(ClassifyBoxes(date, boxes[..i]), date, boxes[i])
  {
    assert boxes[..i + 1][..i] == boxes[..i];
  }

  /** The seven fields of an overview record. */
  function OverviewMap(title: string, postUrl: string, imageUrl: string, date: string, f: BoxFields): Record {
    map["title" := title,
        "post_url" := postUrl,
        "image_url" := imageUrl,
        "date" := date,
        "location" := f.location,
        "overview_price" := f.price,
        "mileage" := f.mileage]
  }

  /** The overview record built from the item and the classified boxes. */
  function OverviewWith(base: string, item: ListingItem, f: BoxFields): Record {
    OverviewMap(TitleOf(item), Resolve(base, HrefOf(item)), Resolve("https:", SrcOf(item)), DateOf(item), f)
  }

  /** The stripped link text, `""` when the item has no title link. */
  function TitleOf(item: ListingItem): string {
    if item.anchor.Some? then Strip(item.anchor.value.text) else ""
  }

  /** The stripped date text, or `""` when the item has no date box. */
  function DateOf(item: ListingItem): string {
    if item.dateText.Some? then Strip(item.dateText.value) else ""
  }

  /** The overview record of one search-result item: always exactly its seven fields. */
  function OverviewRecord(base: string, item: ListingItem): (r: Record)
    ensures r.Keys == OverviewKeys
  {
    OverviewWith(base, item, ClassifyBoxes(DateOf(item), item.boxTexts))
  }

  /** The href of the title link, `""` when there is no link or it has no `href`. */
  function HrefOf(item: ListingItem): string {
    if item.anchor.Some? then item.anchor.value.href.GetOr("") else ""
  }

  /** The stripped image `src`, `""` when there is no image or it has no `src`. */
  function SrcOf(item: ListingItem): string {
    if item.imageSrc.Some? then Strip(item.imageSrc.value) else ""
  }

  /** Reads the fields of an overview record back. */
  lemma {:induction false} OverviewFieldValues(title: string, postUrl: string, imageUrl: string, date: string, f: BoxFields)
    ensures var r := OverviewMap(title, postUrl, imageUrl, date, f);
            && r["post_url"] == postUrl && r["image_url"] == imageUrl && r["date"] == date
            && r["location"] == f.location && r["overview_price"] == f.price && r["mileage"] == f.mileage
  {
  }

  /** Classifying one more box updates the record exactly in the field it names. */
  lemma {:induction false} OverviewBoxStep(title: string, postUrl: string, imageUrl: string, date: string, f: BoxFields, txt: string)
    ensures var r := OverviewMap(title, postUrl, imageUrl, date, f);
            && r["mileage" := txt] == OverviewMap(title, postUrl, imageUrl, date, f.(mileage := txt))
            && r["overview_price" := txt] == OverviewMap(title, postUrl, imageUrl, date, f.(price := txt))
            && r["location" := txt] == OverviewMap(title, postUrl, imageUrl, date, f.(location := txt))
  {
  }

  /**
   * `_extract_listing_details`: the title, the resolved post and image URLs and
   * the date, then the boxes classified one by one in document order.
   */
  method ExtractListingDetails(base: string, item: ListingItem) returns (data: Record)
    ensures data == OverviewRecord(base, item)
  {
    var title := "";
    if item.anchor.Some? {
      title := Strip(item.anchor.value.text);
    }
    var href := "";
    if item.anchor.Some? && item.anchor.value.href.Some? {
      href := item.anchor.value.href.value;
    }
    var src := "";
    if item.imageSrc.Some? {
      src := Strip(item.imageSrc.value);
    }
    var date := "";
    if item.dateText.Some? {
      date := Strip(item.dateText.value);
    }
    assert title == TitleOf(item) && href == HrefOf(item) && src == SrcOf(item) && date == DateOf(item);
    var postUrl := Resolve(base, href);
    var imageUrl := Resolve("https:", src);
    ghost var f := BoxFields("", "", "");
    data := OverviewMap(title, postUrl, imageUrl, date, BoxFields("", "", ""));
    var boxes := item.boxTexts;
    for i := 0 to |boxes|
      invariant f == ClassifyBoxes(date, boxes[..i])
      invariant data == OverviewMap(title, postUrl, imageUrl, date, f)
    {
      var txt := Strip(boxes[i]);
      ghost var f0 := f;
      assert data["overview_price"] == f.price && data["mileage"] == f.mileage && data["date"] == date by {
        OverviewFieldValues(title, postUrl, imageUrl, date, f);
      }
      if MentionsMileage(txt) {
        data := data["mileage" := txt];
        f := f.(mileage := txt);
      } else if MentionsPrice(txt) {
        data := data["overview_price" := txt];
        f := f.(price := txt);
      } else if txt != "" && txt != data["overview_price"] && txt != data["mileage"] && txt != data["date"] {
        data := data["location" := txt];
        f := f.(location := txt);
      }
      assert f == ClassifyBoxes(date, boxes[..i + 1]) by {
        ClassifyPrefix(date, boxes, i);
      }
      assert data == OverviewMap(title, postUrl, imageUrl, date, f) by {
        OverviewBoxStep(title, postUrl, imageUrl, date, f0, txt);
      }
    }
    assert boxes[..|boxes|] == boxes;
  }

  /**
   * A missing title link, or one without `href`, resolves to the base URL
   * itself: the natural key is then the site's base URL, not `""`.
   */
  lemma {:induction false} MissingHrefGivesBase(base: string, item: ListingItem)
    requires item.anchor.None? || item.anchor.value.href.None?
    ensures PostUrl(OverviewRecord(base, item)) == base
  {
    var f := ClassifyBoxes(DateOf(item), item.boxTexts);
    OverviewFieldValues(TitleOf(item), Resolve(base, HrefOf(item)), Resolve("https:", SrcOf(item)), DateOf(item), f);
  }

  /**
   * A title link with an absolute `href` keeps it verbatim as the natural key,
   * when its scheme differs from the base's or its own authority stands (`KeepsAuthority`).
   */
  lemma {:induction false} AbsoluteHrefIsKey(base: string, item: ListingItem)
    requires base != [] && item.anchor.Some? && item.anchor.value.href.Some?
    requires SchemeLength(item.anchor.value.href.value) > 0
    requires var r := Parse(item.anchor.value.href.value);
             r.scheme != Parse(base).scheme || KeepsAuthority(Parse(base), r)
    ensures PostUrl(OverviewRecord(base, item)) == item.anchor.value.href.value
  {
    var f := ClassifyBoxes(DateOf(item), item.boxTexts);
    OverviewFieldValues(TitleOf(item), Resolve(base, HrefOf(item)), Resolve("https:", SrcOf(item)), DateOf(item), f);
    ResolveAbsolute(base, item.anchor.value.href.value);
  }

  /**
   * Image URLs: a missing `src` gives `"https:"`, a protocol-relative `src`
   * (`//host/path`) gets the `https:` prefix.
   */
  lemma {:induction false} ImageUrlResolution(base: string, item: ListingItem)
    ensures item.imageSrc.None? ==> OverviewRecord(base, item)["image_url"] == "https:"
    ensures var src := SrcOf(item);
            |src| >= 2 && src[0] == '/' && src[1] == '/' ==> OverviewRecord(base, item)["image_url"] == "https:" + src
  {
    var f := ClassifyBoxes(DateOf(item), item.boxTexts);
    OverviewFieldValues(TitleOf(item), Resolve(base, HrefOf(item)), Resolve("https:", SrcOf(item)), DateOf(item), f);
    HttpsPrefix(SrcOf(item));
  }

  /** Resolving against `"https:"`: nothing gives `"https:"`, `//host/path` gets the prefix. */
  lemma {:induction false} HttpsPrefix(src: string)
    ensures src == [] ==> Resolve("https:", src) == "https:"
    ensures |src| >= 2 && src[0] == '/' && src[1] == '/' ==> Resolve("https:", src) == "https:" + src
  {
    if |src| >= 2 && src[0] == '/' && src[1] == '/' {
      SchemePrefix("https", "");
      assert "https" + ":" + "" == "https:";
      ResolveNetworkPath("https:", src);
    }
  }

  /** The name of the `k`-th cell pair, lower-cased. */
  function Label(cells: seq<string>, k: nat): string
    requires 2 * k + 1 < |cells|
  {
    Lower(cells[2 * k])
  }

  /** The value of the `k`-th cell pair, as it stands. */
  function Value(cells: seq<string>, k: nat): string
    requires 2 * k + 1 < |cells|
  {
    cells[2 * k + 1]
  }

  /** The name-to-value map built from the first `n` cell pairs, later pairs overwriting earlier ones; every pair's name is a key. */
  function PairMap(cells: seq<string>, n: nat): (m: map<string, string>)
    requires 2 * n <= |cells|
    ensures forall k :: 0 <= k < n ==> Label(cells, k) in m
  {
    if n == 0 then map[] else PairMap(cells, n - 1)[Label(cells, n - 1) := Value(cells, n - 1)]
  }

  /** The name map of a page: cells paired (0,1), (2,3), ...; a trailing unpaired cell is dropped. */
  function LabelMap(cells: seq<string>): (m: map<string, string>)
    ensures forall k :: 0 <= k < |cells| / 2 ==> Label(cells, k) in m
  {
    PairMap(cells, |cells| / 2)
  }

  function Lookup(m: map<string, string>, name: string): string {
    if name in m then m[name] else ""
  }

  /**
   * The detail record: on success the seven fields, each looked up by its
   * page name with `""` when the name is absent; on failure no field at all.
   */
  function PostDetails(page: PostPage): (r: Record)
    ensures page.FetchFailed? ==> r == map[]
    ensures page.Loaded? ==> r.Keys == DetailKeys
  {
    match page
    case FetchFailed => map[]
    case Loaded(cells) =>
      var m := LabelMap(cells);
      map["engine_cc" := Lookup(m, "engine (cc)"),
          "yom" := Lookup(m, "yom"),
          "post_make" := Lookup(m, "make"),
          "model" := Lookup(m, "model"),
          "detail_price" := Lookup(m, "price"),
          "gear" := Lookup(m, "gear"),
          "fuel_type" := Lookup(m, "fuel type")]
  }

  /**
   * A name is in the map exactly when some pair carries it, and its value is
   * the value of the last pair that carries it.
   */
  lemma {:induction false} PairMapLookup(cells: seq<string>, n: nat, name: string)
    requires 2 * n <= |cells|
    ensures name in PairMap(cells, n) <==> exists k :: 0 <= k < n && Label(cells, k) == name
    ensures name in PairMap(cells, n) ==>
              exists k :: 0 <= k < n && Label(cells, k) == name && PairMap(cells, n)[name] == Value(cells, k)
                          && forall j :: k < j < n ==> Label(cells, j) != name
  {
    if n > 0 {
      var m0 := PairMap(cells, n - 1);
      assert PairMap(cells, n) == m0[Label(cells, n - 1) := Value(cells, n - 1)];
      PairMapLookup(cells, n - 1, name);
      if Label(cells, n - 1) != name && name in m0 {
        var k :| 0 <= k < n - 1 && Label(cells, k) == name && m0[name] == Value(cells, k)
                 && forall j :: k < j < n - 1 ==> Label(cells, j) != name;
        assert PairMap(cells, n)[name] == Value(cells, k);
      }
    }
  }

  /** Only the first `2 * n` cells matter to the first `n` pairs. */
  lemma {:induction false} PairMapPrefix(cells: seq<string>, n: nat, m: nat)
    requires 2 * n <= m <= |cells|
    ensures PairMap(cells[..m], n) == PairMap(cells, n)
  {
    if n > 0 {
      PairMapPrefix(cells, n - 1, m);
    }
  }

  /** A trailing unpaired cell changes nothing. */
  lemma {:induction false} TrailingCellDropped(cells: seq<string>)
    requires |cells| % 2 == 1
    ensures LabelMap(cells) == LabelMap(cells[..|cells| - 1])
  {
    PairMapPrefix(cells, |cells| / 2, |cells| - 1);
  }

  /**
   * `_extract_post_details` once the page is loaded: pair the cells, lower-case
   * the labels, then project the seven fields; a failed load leaves `{}`.
   */
  method ExtractPostDetails(page: PostPage) returns (details: Record)
    ensures details == PostDetails(page)
  {
    details := map[];
    if page.FetchFailed? {
      return;
    }
    var cells := page.cells;
    var detailsMap: map<string, string> := map[];
    var i := 0;
    while i < |cells|
      invariant i % 2 == 0
      invariant i <= |cells| + 1
      invariant detailsMap == PairMap(cells, (if i <= |cells| then i else |cells|) / 2)
    {
      if i + 1 < |cells| {
        detailsMap := detailsMap[Lower(cells[i]) := cells[i + 1]];
      }
      i := i + 2;
    }
    details := details["engine_cc" := Lookup(detailsMap, "engine (cc)")];
    details := details["yom" := Lookup(detailsMap, "yom")];
    details := details["post_make" := Lookup(detailsMap, "make")];
    details := details["model" := Lookup(detailsMap, "model")];
    details := details["detail_price" := Lookup(detailsMap, "price")];
    details := details["gear" := Lookup(detailsMap, "gear")];
    details := details["fuel_type" := Lookup(detailsMap, "fuel type")];
  }

  /** Each detail field and the page label it is read from. */
  const DetailLabels: map<string, string> :=
    map["engine_cc" := "engine (cc)", "yom" := "yom", "post_make" := "make", "model" := "model",
        "detail_price" := "price", "gear" := "gear", "fuel_type" := "fuel type"]

  /**
   * On a loaded page each detail field is the value of the last cell pair
   * whose lower-cased label is the field's page label, and `""` when no pair
   * carries that label.
   */
  lemma {:induction false} DetailFieldIsLastPair(cells: seq<string>, key: string)
    requires key in DetailLabels
    ensures var r := PostDetails(Loaded(cells));
            var name := DetailLabels[key];
            && key in r
            && ((forall k :: 0 <= k < |cells| / 2 ==> Label(cells, k) != name) ==> r[key] == "")
            && ((exists k :: 0 <= k < |cells| / 2 && Label(cells, k) == name) ==>
                 exists k :: && 0 <= k < |cells| / 2 && Label(cells, k) == name && r[key] == Value(cells, k)
                             && forall j :: k < j < |cells| / 2 ==> Label(cells, j) != name)
  {
    var name := DetailLabels[key];
    assert PostDetails(Loaded(cells))[key] == Lookup(LabelMap(cells), name);
    PairMapLookup(cells, |cells| / 2, name);
  }
}

=== FILE: records.dfy ===
/**
 * Listing records. The scraper passes listings around as Python dicts from
 * field name to text; a record is the same finite map here.
 */
module Records {

  type Record = map<string, string>

  /** `record.get(key, "")`. */
  function Get(r: Record, key: string): string {
    if key in r then r[key] else ""
  }

  /** The natural key of a listing; `""` when the record has none. */
  function PostUrl(r: Record): string {
    Get(r, "post_url")
  }

  /** The fields of the overview record, filled from a search-result item. */
  const OverviewKeys: set<string> :=
    {"title", "post_url", "image_url", "date", "location", "overview_price", "mileage"}

  /** The fields of the detail record, filled from a listing's own page. */
  const DetailKeys: set<string> :=
    {"engine_cc", "yom", "post_make", "model", "detail_price", "gear", "fuel_type"}

  /** The search context added to every listing. */
  const ContextKeys: set<string> := {"make", "type"}

  /**
   * `{**overview, **details, 'make': make, 'type': vtype}`: later sources win,
   * so the search context overrides both, and detail fields override overview
   * fields of the same name.
   */
  function Merge(overview: Record, details: Record, make: string, vtype: string): (r: Record)
    ensures r.Keys == overview.Keys + details.Keys + ContextKeys
    ensures r["make"] == make && r["type"] == vtype
    ensures forall k :: k in details && k !in ContextKeys ==> r[k] == details[k]
    ensures forall k :: k in overview && k !in details && k !in ContextKeys ==> r[k] == overview[k]
  {
    overview + details + map["make" := make, "type" := vtype]
  }

  /**
   * Merging an overview with a detail record (the seven detail fields, or none
   * when the detail page failed) keeps the overview's natural key.
   */
  lemma {:induction false} MergeKeepsPostUrl(overview: Record, details: Record, make: string, vtype: string)
    requires details.Keys <= DetailKeys
    ensures PostUrl(Merge(overview, details, make, vtype)) == PostUrl(overview)
  {
    assert "post_url" !in DetailKeys;
    assert "post_url" !in ContextKeys;
  }
}

=== FILE: scraper.dfy ===
/**
 * The Riyasewana scraper object: its configuration, the database it writes
 * to, and the ledger of post URLs it has seen, loaded from the database when
 * it is built and extended as it scrapes. `ScrapeSite` is the loop nest of
 * `scrape_site`, proved to do exactly what `Crawl.CrawlSite` describes.
 */
module Scraper {
  import opened Text
  import opened Records
  import opened Extract
  import opened Storage
  import opened Crawl
  import opened Settings

  class RiyasewanaScraper {
    const db: Database
    const config: Config
    /** Post URLs already stored or already scraped in this run. */
    var seenUrls: set<string>

    /**
     * Builds the scraper with the site configuration and loads the ledger
     * with the stored post URLs (none when the query fails).
     */
    constructor(db: Database, loadFails: bool)
      ensures this.db == db && config == SiteConfig
      ensures seenUrls == if loadFails then {} else StoredUrls(db.rows)
    {
      var urls := db.GetAllPostUrls(loadFails);
      this.db := db;
      config := SiteConfig;
      seenUrls := urls;
    }

    /** The state of a crawl, as the method's variables and fields hold it. */
    ghost function Snapshot(listings: seq<Record>, batch: seq<Record>, flushed: seq<seq<Record>>,
                            visits: seq<Visit>, fetched: seq<string>): State
      reads this, db
    {
      State(seenUrls, listings, batch, flushed, db.rows, visits, fetched)
    }

    /**
     * The body of the item loop of `scrape_site`: skip the item when its post
     * URL is empty or seen; otherwise mark it seen, fetch and extract its
     * post page, merge, record, buffer, and hand a full buffer to the
     * database. `added` says whether the item gave a new listing.
     */
    method ScrapeItem(site: Site, make: string, vtype: string, item: ListingItem,
                      listings: seq<Record>, batch: seq<Record>, inserts: nat,
                      ghost flushed: seq<seq<Record>>, ghost visits: seq<Visit>, ghost fetched: seq<string>)
      returns (listings': seq<Record>, batch': seq<Record>, inserts': nat, added: bool,
               ghost flushed': seq<seq<Record>>, ghost fetched': seq<string>)
      requires db.Valid() && inserts == |flushed|
      modifies this, db
      ensures db.Valid() && inserts' == |flushed'|
      ensures Snapshot(listings', batch', flushed', visits, fetched')
              == ProcessItem(config, site, make, vtype, old(Snapshot(listings, batch, flushed, visits, fetched)), item).0
      ensures added == ProcessItem(config, site, make, vtype, old(Snapshot(listings, batch, flushed, visits, fetched)), item).1
    {
      listings', batch', inserts', flushed', fetched' := listings, batch, inserts, flushed, fetched;
      var overview := ExtractListingDetails(config.baseUrl, item);
      var postUrl := PostUrl(overview);
      if postUrl == "" || postUrl in seenUrls {
        return listings', batch', inserts', false, flushed', fetched';
      }
      seenUrls := seenUrls + {postUrl};
      fetched' := fetched' + [postUrl];
      var details := ExtractPostDetails(PostAt(site, postUrl));
      var full := Merge(overview, details, make, vtype);
      listings' := listings' + [full];
      batch' := batch' + [full];
      added := true;
      if |batch'| >= config.batchSize {
        var _ := db.InsertListingsBatch(batch', inserts' in site.failingInserts);
        flushed' := flushed' + [batch'];
        inserts' := inserts' + 1;
        batch' := [];
      }
    }

    /** The item loop of `scrape_site` over one page; `newOnPage` counts the new listings. */
    method ScrapeItems(site: Site, make: string, vtype: string, items: seq<ListingItem>,
                       listings: seq<Record>, batch: seq<Record>, inserts: nat,
                       ghost flushed: seq<seq<Record>>, ghost visits: seq<Visit>, ghost fetched: seq<string>)
      returns (listings': seq<Record>, batch': seq<Record>, inserts': nat, newOnPage: nat,
               ghost flushed': seq<seq<Record>>, ghost fetched': seq<string>)
      requires db.Valid() && inserts == |flushed|
      modifies this, db
      ensures db.Valid() && inserts' == |flushed'|
      ensures Snapshot(listings', batch', flushed', visits, fetched')
              == ProcessItems(config, site, make, vtype, old(Snapshot(listings, batch, flushed, visits, fetched)), items).0
      ensures newOnPage
              == ProcessItems(config, site, make, vtype, old(Snapshot(listings, batch, flushed, visits, fetched)), items).1
    {
      listings', batch', inserts', flushed', fetched' := listings, batch, inserts, flushed, fetched;
      ghost var onPage := Snapshot(listings', batch', flushed', visits, fetched');
      newOnPage := 0;
      for k := 0 to |items|
        invariant db.Valid() && inserts' == |flushed'|
        invariant Snapshot(listings', batch', flushed', visits, fetched')
                  == ProcessItems(config, site, make, vtype, onPage, items[..k]).0
        invariant newOnPage == ProcessItems(config, site, make, vtype, onPage, items[..k]).1
      {
        ProcessItemsStep(config, site, make, vtype, onPage, items, k);
        var added: bool;
        listings', batch', inserts', added, flushed', fetched' :=
          ScrapeItem(site, make, vtype, items[k], listings', batch', inserts', flushed', visits, fetched');
        if added {
          newOnPage := newOnPage + 1;
        }
      }
      assert items[..|items|] == items;
    }

    /**
     * The pagination loop of `scrape_site` for one type and make: visit page
     * 1, 2, ... and scrape the items of each, until a page fails to load,
     * has no list or no items, or (after the first) gives no new listing.
     */
    method ScrapePages(site: Site, make: string, vtype: string,
                       listings: seq<Record>, batch: seq<Record>, inserts: nat,
                       ghost flushed: seq<seq<Record>>, ghost visits: seq<Visit>, ghost fetched: seq<string>)
      returns (listings': seq<Record>, batch': seq<Record>, inserts': nat,
               ghost flushed': seq<seq<Record>>, ghost visits': seq<Visit>, ghost fetched': seq<string>)
      requires db.Valid() && inserts == |flushed|
      requires Bounded(site, config.baseUrl)
      modifies this, db
      ensures db.Valid() && inserts' == |flushed'|
      ensures Snapshot(listings', batch', flushed', visits', fetched')
              == PagesFrom(config, site, make, vtype, old(Snapshot(listings, batch, flushed, visits, fetched)), 1)
    {
      listings', batch', inserts', flushed', visits', fetched' := listings, batch, inserts, flushed, visits, fetched;
      ghost var target := PagesFrom(config, site, make, vtype, Snapshot(listings', batch', flushed', visits', fetched'), 1);
      var page := 1;
      while true
        invariant db.Valid() && inserts' == |flushed'| && page >= 1
        invariant PagesFrom(config, site, make, vtype, Snapshot(listings', batch', flushed', visits', fetched'), page) == target
        decreases site.maxPage + 1 - page
      {
        ghost var before := Snapshot(listings', batch', flushed', visits', fetched');
        var url := config.baseUrl + "/search/" + vtype + "/" + make;
        if page > 1 {
          url := url + "?page=" + NatToString(page);
        }
        assert url == PageUrl(config.baseUrl, vtype, make, page);
        visits' := visits' + [Visit(make, vtype, page, url)];
        ghost var visited := Snapshot(listings', batch', flushed', visits', fetched');
        assert visited == before.(visits := before.visits + [Visit(make, vtype, page, url)]);
        var listingPage := PageAt(site, url);
        if listingPage.LoadFailed? || listingPage.NoList? || listingPage.items == [] {
          assert visited == target by {
            assert !Continues(config, site, make, vtype, before, page);
            assert AfterPage(config, site, make, vtype, before, page) == visited;
          }
          break;
        }
        var newOnPage: nat;
        listings', batch', inserts', newOnPage, flushed', fetched' :=
          ScrapeItems(site, make, vtype, listingPage.items, listings', batch', inserts', flushed', visits', fetched');
        ghost var after := Snapshot(listings', batch', flushed', visits', fetched');
        assert after == AfterPage(config, site, make, vtype, before, page);
        if newOnPage == 0 && page > 1 {
          assert after == target by {
            assert !Continues(config, site, make, vtype, before, page);
          }
          break;
        }
        assert PagesFrom(config, site, make, vtype, after, page + 1) == target by {
          assert Continues(config, site, make, vtype, before, page);
        }
        ContinuesBounded(config, site, make, vtype, before, page);
        page := page + 1;
      }
    }

    /**
     * `scrape_site`: every make, every type, every page until pagination
     * ends, every item of a page; returns the new listings in the order they
     * were scraped. The ledger and the table end as `CrawlSite` says, and the
     * ghost results give the batches handed to the database, the search
     * pages visited and the post pages fetched.
     */
    method ScrapeSite(site: Site)
      returns (listings: seq<Record>, ghost flushed: seq<seq<Record>>, ghost visits: seq<Visit>,
               ghost fetched: seq<string>)
      requires db.Valid()
      requires Bounded(site, config.baseUrl)
      modifies this, db
      ensures db.Valid()
      ensures Snapshot(listings, [], flushed, visits, fetched) == CrawlSite(config, site, old(seenUrls), old(db.rows))
    {
      ghost var start := Start(seenUrls, db.rows);
      listings := [];
      var batch: seq<Record> := [];
      flushed, visits, fetched := [], [], [];
      // Numbers the calls of `insert_listings_batch`, to look up their outcome in `site`.
      var inserts: nat := 0;
      var makes := config.vehicleMakes;
      var types := config.vehicleTypes;
      for i := 0 to |makes|
        invariant db.Valid() && inserts == |flushed|
        invariant Snapshot(listings, batch, flushed, visits, fetched) == CrawlMakes(config, site, start, makes[..i])
      {
        var make := makes[i];
        ghost var before := CrawlMakes(config, site, start, makes[..i]);
        for j := 0 to |types|
          invariant db.Valid() && inserts == |flushed|
          invariant Snapshot(listings, batch, flushed, visits, fetched) == CrawlTypes(config, site, make, before, types[..j])
        {
          var vtype := types[j];
          listings, batch, inserts, flushed, visits, fetched :=
            ScrapePages(site, make, vtype, listings, batch, inserts, flushed, visits, fetched);
          assert types[..j + 1][..j] == types[..j];
        }
        assert types[..|types|] == types;
        assert makes[..i + 1][..i] == makes[..i];
      }
      assert makes[..|makes|] == makes;
      if batch != [] {
        var _ := db.InsertListingsBatch(batch, inserts in site.failingInserts);
        flushed := flushed + [batch];
        batch := [];
      }
    }
  }
}

=== FILE: storage.dfy ===
/**
 * The `listings` table of the SQLite store and the two operations the
 * scraper uses: `insert_listings_batch` (`INSERT OR IGNORE` of a batch inside
 * one transaction, rolled back on a database error) and `get_all_post_urls`.
 * The table is the sequence of its rows in insertion (`id`) order; the
 * `UNIQUE` constraint on `post_url` is the invariant `UniquePostUrls`.
 */
module Storage {
  import opened Records

  /** One row of `listings`, its sixteen text columns in declaration order. */
  datatype Row = Row(
    date: string, make: string, vtype: string, title: string, location: string, mileage: string,
    overviewPrice: string, detailPrice: string, engineCc: string, yom: string,
    postMake: string, model: string, gear: string, fuelType: string, postUrl: string, imageUrl: string)

  /** The columns named in the `INSERT` statement, in its order. */
  const Columns: seq<string> :=
    ["date", "make", "type", "title", "location", "mileage",
     "overview_price", "detail_price", "engine_cc", "yom",
     "post_make", "model", "gear", "fuel_type", "post_url", "image_url"]

  /**
   * The sixteen columns of the `INSERT` are distinct, so each value of a row
   * lands in exactly one column, and the fifteenth is `post_url`, the column
   * the table keeps unique.
   */
  lemma {:induction false} ColumnsDistinct()
    ensures |Columns| == 16 && Columns[14] == "post_url"
    ensures forall i, j :: 0 <= i < j < |Columns| ==> Columns[i] != Columns[j]
  {
  }

  /** The values of a row, in column order. */
  function Values(row: Row): (vs: seq<string>)
    ensures |vs| == |Columns|
    ensures vs[14] == row.postUrl
  {
    [row.date, row.make, row.vtype, row.title, row.location, row.mileage,
     row.overviewPrice, row.detailPrice, row.engineCc, row.yom,
     row.postMake, row.model, row.gear, row.fuelType, row.postUrl, row.imageUrl]
  }

  /**
   * The parameter tuple of one listing: every column read with
   * `.get(column, '')`, so each value sits under the column of the same name.
   */
  function ToRow(rec: Record): (r: Row)
    ensures forall i :: 0 <= i < |Columns| ==> Values(r)[i] == Get(rec, Columns[i])
    ensures r.postUrl == PostUrl(rec)
  {
    Row(Get(rec, "date"), Get(rec, "make"), Get(rec, "type"), Get(rec, "title"),
        Get(rec, "location"), Get(rec, "mileage"), Get(rec, "overview_price"),
        Get(rec, "detail_price"), Get(rec, "engine_cc"), Get(rec, "yom"),
        Get(rec, "post_make"), Get(rec, "model"), Get(rec, "gear"), Get(rec, "fuel_type"),
        Get(rec, "post_url"), Get(rec, "image_url"))
  }

  /** The tuples of a batch, in batch order. */
  function RowsOf(listings: seq<Record>): (rows: seq<Row>)
    ensures |rows| == |listings|
    ensures forall i :: 0 <= i < |listings| ==> rows[i] == ToRow(listings[i])
  {
    seq(|listings|, i requires 0 <= i < |listings| => ToRow(listings[i]))
  }

  /** The `post_url` values of some rows. */
  function UrlsOf(rows: seq<Row>): (urls: set<string>)
    ensures forall i :: 0 <= i < |rows| ==> rows[i].postUrl in urls
    ensures forall u :: u in urls ==> exists i :: 0 <= i < |rows| && rows[i].postUrl == u
  {
    if rows == [] then {} else UrlsOf(rows[..|rows| - 1]) + {rows[|rows| - 1].postUrl}
  }

  /** The `UNIQUE` constraint on `post_url`. */
  predicate UniquePostUrls(rows: seq<Row>) {
    forall i, j :: 0 <= i < j < |rows| ==> rows[i].postUrl != rows[j].postUrl
  }

  /** Whether some row already holds `url`: the conflict `INSERT OR IGNORE` ignores. */
  predicate HasPostUrl(rows: seq<Row>, url: string) {
    exists i :: 0 <= i < |rows| && rows[i].postUrl == url
  }

  /** One `INSERT OR IGNORE`: the row is appended unless its `post_url` is taken; either way the URL is then stored. */
  function InsertOne(table: seq<Row>, row: Row): (t: seq<Row>)
    ensures |table| <= |t| <= |table| + 1 && t[..|table|] == table
    ensures HasPostUrl(t, row.postUrl)
  {
    if HasPostUrl(table, row.postUrl) then table
    else assert (table + [row])[|table|] == row; table + [row]
  }

  /** `executemany` of `INSERT OR IGNORE`: the rows are offered one by one, in order, and rows are only ever appended. */
  function InsertOrIgnore(table: seq<Row>, rows: seq<Row>): (t: seq<Row>)
    ensures |table| <= |t| <= |table| + |rows| && t[..|table|] == table
    decreases |rows|
  {
    if rows == [] then table else InsertOne(InsertOrIgnore(table, rows[..|rows| - 1]), rows[|rows| - 1])
  }

  /** The non-empty `post_url` values of a table: what `get_all_post_urls` returns. */
  function StoredUrls(rows: seq<Row>): (urls: set<string>)
    ensures forall u :: u in urls <==> u != "" && HasPostUrl(rows, u)
  {
    UrlsOf(rows) - {""}
  }

  /** One `INSERT OR IGNORE` keeps the constraint and the old rows, and adds the row's URL. */
  lemma {:induction false} InsertOneSpec(table: seq<Row>, row: Row)
    requires UniquePostUrls(table)
    ensures var t := InsertOne(table, row);
            && UniquePostUrls(t)
            && |table| <= |t| <= |table| + 1 && t[..|table|] == table
            && (|t| == |table| + 1 ==> t[|table|] == row)
            && UrlsOf(t) == UrlsOf(table) + {row.postUrl}
  {
    if !HasPostUrl(table, row.postUrl) {
      var t := table + [row];
      assert t[..|table|] == table;
      assert t[..|t| - 1] == table;
    }
  }

  /**
   * Inserting keeps the constraint, keeps every old row where it was, adds
   * only rows of the batch, and stores exactly the URLs of the table and of
   * the batch.
   */
  lemma {:induction false} InsertOrIgnoreSpec(table: seq<Row>, rows: seq<Row>)
    requires UniquePostUrls(table)
    ensures var t := InsertOrIgnore(table, rows);
            && UniquePostUrls(t)
            && |table| <= |t| && t[..|table|] == table
            && UrlsOf(t) == UrlsOf(table) + UrlsOf(rows)
            && (forall i :: |table| <= i < |t| ==> t[i] in rows)
  {
    InsertKeepsTable(table, rows);
    InsertStoresUrls(table, rows);
    InsertAddsBatchRows(table, rows);
  }

  lemma {:induction false} InsertKeepsTable(table: seq<Row>, rows: seq<Row>)
    requires UniquePostUrls(table)
    ensures var t := InsertOrIgnore(table, rows);
            UniquePostUrls(t) && |table| <= |t| && t[..|table|] == table
    decreases |rows|
  {
    if rows != [] {
      var prefix := rows[..|rows| - 1];
      InsertKeepsTable(table, prefix);
      var t0 := InsertOrIgnore(table, prefix);
      InsertOneSpec(t0, rows[|rows| - 1]);
      var t := InsertOrIgnore(table, rows);
      assert t[..|t0|] == t0;
      assert t[..|table|] == t0[..|table|];
    }
  }

  lemma {:induction false} InsertStoresUrls(table: seq<Row>, rows: seq<Row>)
    requires UniquePostUrls(table)
    ensures UrlsOf(InsertOrIgnore(table, rows)) == UrlsOf(table) + UrlsOf(rows)
    decreases |rows|
  {
    if rows != [] {
      var prefix := rows[..|rows| - 1];
      InsertStoresUrls(table, prefix);
      InsertKeepsTable(table, prefix);
      InsertOneSpec(InsertOrIgnore(table, prefix), rows[|rows| - 1]);
    }
  }

  lemma {:induction false} InsertAddsBatchRows(table: seq<Row>, rows: seq<Row>)
    requires UniquePostUrls(table)
    ensures var t := InsertOrIgnore(table, rows);
            |table| <= |t| && forall i :: |table| <= i < |t| ==> t[i] in rows
    decreases |rows|
  {
    if rows != [] {
      var prefix := rows[..|rows| - 1];
      InsertAddsBatchRows(table, prefix);
      InsertKeepsTable(table, prefix);
      var t0 := InsertOrIgnore(table, prefix);
      InsertOneSpec(t0, rows[|rows| - 1]);
      var t := InsertOrIgnore(table, rows);
      forall i | |table| <= i < |t|
        ensures t[i] in rows
      {
        if i < |t0| {
          assert t[..|t0|] == t0;
          assert t[i] == t0[i];
          assert t0[i] in prefix;
        }
      }
    }
  }

  /** A unique table has one row per URL. */
  lemma {:induction false} UniqueCount(rows: seq<Row>)
    requires UniquePostUrls(rows)
    ensures |UrlsOf(rows)| == |rows|
    decreases |rows|
  {
    if rows != [] {
      var prefix := rows[..|rows| - 1];
      UniqueCount(prefix);
      assert forall i :: 0 <= i < |prefix| ==> prefix[i] == rows[i];
      assert rows[|rows| - 1].postUrl !in UrlsOf(prefix);
    }
  }

  /**
   * The number of rows a batch adds is the number of its distinct URLs not
   * already stored: what `cursor.rowcount` reports after the commit.
   */
  lemma {:induction false} InsertedCount(table: seq<Row>, rows: seq<Row>)
    requires UniquePostUrls(table)
    ensures |InsertOrIgnore(table, rows)| - |table| == |UrlsOf(rows) - UrlsOf(table)|
  {
    var t := InsertOrIgnore(table, rows);
    InsertOrIgnoreSpec(table, rows);
    UniqueCount(table);
    UniqueCount(t);
    assert UrlsOf(t) == UrlsOf(table) + (UrlsOf(rows) - UrlsOf(table));
  }

  /** A batch whose URLs are all stored already leaves the table as it was. */
  lemma {:induction false} InsertAllPresent(table: seq<Row>, rows: seq<Row>)
    requires forall i :: 0 <= i < |rows| ==> HasPostUrl(table, rows[i].postUrl)
    ensures InsertOrIgnore(table, rows) == table
    decreases |rows|
  {
    if rows != [] {
      InsertAllPresent(table, rows[..|rows| - 1]);
    }
  }

  /** Inserting the same batch twice stores it once. */
  lemma {:induction false} InsertIdempotent(table: seq<Row>, rows: seq<Row>)
    requires UniquePostUrls(table)
    ensures InsertOrIgnore(InsertOrIgnore(table, rows), rows) == InsertOrIgnore(table, rows)
  {
    var t := InsertOrIgnore(table, rows);
    InsertOrIgnoreSpec(table, rows);
    forall i | 0 <= i < |rows|
      ensures HasPostUrl(t, rows[i].postUrl)
    {
      assert rows[i].postUrl in UrlsOf(t);
    }
    InsertAllPresent(t, rows);
  }

  /**
   * The first row of the batch carrying a URL not yet stored is the row that
   * gets stored under it; later rows with that URL are ignored.
   */
  lemma {:induction false} FirstOccurrenceStored(table: seq<Row>, rows: seq<Row>, i: nat)
    requires i < |rows| && !HasPostUrl(table, rows[i].postUrl)
    requires forall j :: 0 <= j < i ==> rows[j].postUrl != rows[i].postUrl
    ensures rows[i] in InsertOrIgnore(table, rows)
    decreases |rows|
  {
    var prefix := rows[..|rows| - 1];
    if i < |rows| - 1 {
      FirstOccurrenceStored(table, prefix, i);
      var t0 := InsertOrIgnore(table, prefix);
      assert rows[i] in InsertOne(t0, rows[|rows| - 1]);
    } else {
      NotYetStored(table, prefix, rows[i].postUrl);
    }
  }

  /** A URL that neither the table nor the batch holds is not stored by the batch. */
  lemma {:induction false} NotYetStored(table: seq<Row>, rows: seq<Row>, url: string)
    requires !HasPostUrl(table, url)
    requires forall j :: 0 <= j < |rows| ==> rows[j].postUrl != url
    ensures !HasPostUrl(InsertOrIgnore(table, rows), url)
    decreases |rows|
  {
    if rows != [] {
      NotYetStored(table, rows[..|rows| - 1], url);
    }
  }

  /** The stored URLs after a batch: the old ones and the batch's non-empty ones. */
  lemma {:induction false} StoredUrlsAfterInsert(table: seq<Row>, rows: seq<Row>)
    requires UniquePostUrls(table)
    ensures StoredUrls(InsertOrIgnore(table, rows)) == StoredUrls(table) + (UrlsOf(rows) - {""})
  {
    InsertOrIgnoreSpec(table, rows);
  }

  /** The SQLite database holding the `listings` table. */
  class Database {
    /** The rows of `listings`, in `id` order. */
    var rows: seq<Row>

    ghost predicate Valid()
      reads this
    {
      UniquePostUrls(rows)
    }

    /** A database whose table already holds `existing`. */
    constructor(existing: seq<Row>)
      requires UniquePostUrls(existing)
      ensures Valid() && rows == existing
    {
      rows := existing;
    }

    /**
     * `insert_listings_batch`: an empty batch returns 0 at once; otherwise
     * the tuples are built, offered to `INSERT OR IGNORE` one by one inside a
     * transaction, and committed; the number of rows added is returned. When
     * the database reports an error (`fails`), the transaction is rolled
     * back and 0 is returned.
     */
    method InsertListingsBatch(listings: seq<Record>, fails: bool) returns (inserted: nat)
      requires Valid()
      modifies this
      ensures Valid()
      ensures listings == [] || fails ==> rows == old(rows) && inserted == 0
      ensures listings != [] && !fails ==>
                rows == InsertOrIgnore(old(rows), RowsOf(listings)) && inserted == |rows| - |old(rows)|
    {
      if listings == [] {
        return 0;
      }
      var tuples := BuildTuples(listings);
      var table := rows;
      var pending := table;
      var count := 0;
      for i := 0 to |tuples|
        invariant pending == InsertOrIgnore(table, tuples[..i])
        invariant |table| <= |pending| && count == |pending| - |table|
        invariant rows == table
      {
        assert tuples[..i + 1][..i] == tuples[..i];
        InsertKeepsTable(table, tuples[..i]);
        if !HasPostUrl(pending, tuples[i].postUrl) {
          pending := pending + [tuples[i]];
          count := count + 1;
        }
      }
      assert tuples[..|tuples|] == tuples;
      InsertKeepsTable(table, tuples);
      if fails {
        inserted := 0;
      } else {
        rows := pending;
        inserted := count;
      }
    }

    /** The parameter tuples of a batch, built one listing at a time. */
    static method BuildTuples(listings: seq<Record>) returns (tuples: seq<Row>)
      ensures tuples == RowsOf(listings)
    {
      tuples := [];
      for i := 0 to |listings|
        invariant |tuples| == i
        invariant forall k :: 0 <= k < i ==> tuples[k] == ToRow(listings[k])
      {
        tuples := tuples + [ToRow(listings[i])];
      }
    }

    /**
     * `get_all_post_urls`: the set of non-empty stored URLs, or the empty set
     * when the query fails.
     */
    method GetAllPostUrls(fails: bool) returns (urls: set<string>)
      ensures fails ==> urls == {}
      ensures !fails ==> urls == StoredUrls(rows)
      ensures forall u :: u in urls ==> u != "" && HasPostUrl(rows, u)
    {
      if fails {
        return {};
      }
      urls := {};
      for i := 0 to |rows|
        invariant urls == UrlsOf(rows[..i]) - {""}
      {
        assert UrlsOf(rows[..i + 1]) == UrlsOf(rows[..i]) + {rows[i].postUrl} by {
          assert rows[..i + 1][..i] == rows[..i];
        }
        if rows[i].postUrl != "" {
          urls := urls + {rows[i].postUrl};
        }
      }
      assert rows[..|rows|] == rows;
    }
  }
}

=== FILE: text.dfy ===
/**
 * The string operations the scraper applies to extracted text:
 * Python's `str.strip()`, `str.lower()`, the `in` substring test,
 * and the decimal rendering of a page number inside an f-string.
 */
module Text {

  /** Python's `str.isspace()` for one character: the code points `str.strip()` removes. */
  predicate IsSpace(c: char) {
    var n := c as int;
    (9 <= n <= 13) || (28 <= n <= 32) || n == 0x85 || n == 0xA0 || n == 0x1680
    || (0x2000 <= n <= 0x200A) || n == 0x2028 || n == 0x2029 || n == 0x202F
    || n == 0x205F || n == 0x3000
  }

  /** The first index at or after `i` that does not hold white space, or `|s|`. */
  function SkipSpace(s: string, i: nat): (j: nat)
    requires i <= |s|
    ensures i <= j <= |s|
    ensures forall k :: i <= k < j ==> IsSpace(s[k])
    ensures j < |s| ==> !IsSpace(s[j])
    decreases |s| - i
  {
    if i < |s| && IsSpace(s[i]) then SkipSpace(s, i + 1) else i
  }

  /** The end of `s[lo..j]` once trailing white space is dropped. */
  function SkipSpaceBack(s: string, lo: nat, j: nat): (k: nat)
    requires lo <= j <= |s|
    ensures lo <= k <= j
    ensures forall m :: k <= m < j ==> IsSpace(s[m])
    ensures k > lo ==> !IsSpace(s[k - 1])
    decreases j - lo
  {
    if j > lo && IsSpace(s[j - 1]) then SkipSpaceBack(s, lo, j - 1) else j
  }

  /**
   * `s.strip()`: the infix of `s` left once white space is removed from both
   * ends; it starts and ends with a character that is not white space.
   */
  function Strip(s: string): (r: string)
    ensures var a := SkipSpace(s, 0);
            && a + |r| <= |s| && r == s[a..a + |r|]
            && (forall i :: 0 <= i < a ==> IsSpace(s[i]))
            && (forall i :: a + |r| <= i < |s| ==> IsSpace(s[i]))
    ensures r == [] || (!IsSpace(r[0]) && !IsSpace(r[|r| - 1]))
  {
    var a := SkipSpace(s, 0);
    s[a..SkipSpaceBack(s, a, |s|)]
  }

  /** Stripping twice is stripping once. */
  lemma {:induction false} StripIdempotent(s: string)
    ensures Strip(Strip(s)) == Strip(s)
  {
    var r := Strip(s);
    if r != [] {
      assert SkipSpace(r, 0) == 0;
      assert SkipSpaceBack(r, 0, |r|) == |r|;
    }
  }

  /** `c.lower()` on the ASCII letters; other characters are kept. */
  function LowerChar(c: char): char {
    if 'A' <= c <= 'Z' then (c as int + 32) as char else c
  }

  /** `s.lower()`: same length, no upper-case ASCII letter left, every other character kept. */
  function Lower(s: string): (r: string)
    ensures |r| == |s|
    ensures forall i :: 0 <= i < |r| ==> !('A' <= r[i] <= 'Z')
    ensures forall i :: 0 <= i < |r| ==> r[i] == s[i] || ('A' <= s[i] <= 'Z' && r[i] as int == s[i] as int + 32)
  {
    seq(|s|, i requires 0 <= i < |s| => LowerChar(s[i]))
  }

  /** `sub` occurs in `s` starting at index `i`. */
  predicate OccursAt(s: string, sub: string, i: nat) {
    i + |sub| <= |s| && s[i..i + |sub|] == sub
  }

  /** Python's `sub in s`. */
  predicate Contains(s: string, sub: string) {
    exists i: nat | i <= |s| :: OccursAt(s, sub, i)
  }

  function DigitChar(d: nat): char
    requires d < 10
  {
    "0123456789"[d]
  }

  function DigitValue(c: char): nat {
    if '0' <= c <= '9' then c as int - '0' as int else 0
  }

  /** The decimal rendering of `n` (Python's `f"{n}"` for a non-negative int). */
  function NatToString(n: nat): (r: string)
    ensures |r| >= 1
    ensures forall i :: 0 <= i < |r| ==> '0' <= r[i] <= '9'
    ensures r[0] == '0' ==> n == 0
  {
    if n < 10 then [DigitChar(n)] else NatToString(n / 10) + [DigitChar(n % 10)]
  }

  /** Reads a string of decimal digits back as a number. */
  function ParseNat(s: string): nat {
    if s == [] then 0 else ParseNat(s[..|s| - 1]) * 10 + DigitValue(s[|s| - 1])
  }

  /** Rendering then reading a page number gives it back, so rendering is injective. */
  lemma {:induction false} ParseNatToString(n: nat)
    ensures ParseNat(NatToString(n)) == n
  {
    var s := NatToString(n);
    if n < 10 {
      assert s[..|s| - 1] == [];
    } else {
      ParseNatToString(n / 10);
      assert s[..|s| - 1] == NatToString(n / 10);
    }
  }

  lemma {:induction false} NatToStringInjective(m: nat, n: nat)
    requires NatToString(m) == NatToString(n)
    ensures m == n
  {
    ParseNatToString(m);
    ParseNatToString(n);
  }
}

=== FILE: urls.dfy ===
/**
 * URL resolution as `safe_urljoin` (Python's `urllib.parse.urljoin`) performs it
 * for the references the scraper meets: a reference is split into its five
 * components (section 3 of RFC 3986), resolved against the base by the
 * algorithm of section 5.2.2 of RFC 3986 and recomposed as in section 5.3.
 */
module Urls {
  import opened Wrappers

  /** The five components of a URI reference; an absent component is `None`. */
  datatype Reference = Reference(
    scheme: Option<string>,
    authority: Option<string>,
    path: string,
    query: Option<string>,
    fragment: Option<string>)

  predicate IsAlpha(c: char) {
    'a' <= c <= 'z' || 'A' <= c <= 'Z'
  }

  predicate IsSchemeChar(c: char) {
    IsAlpha(c) || '0' <= c <= '9' || c == '+' || c == '-' || c == '.'
  }

  /** The first index at or after `from` holding a character of `stops`, or `|s|`. */
  function FindAny(s: string, stops: set<char>, from: nat): (k: nat)
    requires from <= |s|
    ensures from <= k <= |s|
    ensures forall j :: from <= j < k ==> s[j] !in stops
    ensures k < |s| ==> s[k] in stops
    decreases |s| - from
  {
    if from == |s| || s[from] in stops then from else FindAny(s, stops, from + 1)
  }

  /** `FindAny` runs to the end when no character of `stops` follows `from`. */
  lemma {:induction false} FindAnyNone(s: string, stops: set<char>, from: nat)
    requires from <= |s|
    requires forall j :: from <= j < |s| ==> s[j] !in stops
    ensures FindAny(s, stops, from) == |s|
    decreases |s| - from
  {
    if from < |s| {
      FindAnyNone(s, stops, from + 1);
    }
  }

  /**
   * The length of the scheme of `s`, or 0 when it has none: the text before the
   * first ':' is a scheme when it is non-empty, starts with a letter and holds
   * only scheme characters.
   */
  function SchemeLength(s: string): (k: nat)
    ensures k < |s| || k == 0
    ensures k > 0 ==> s[k] == ':' && IsAlpha(s[0]) && forall j :: 0 <= j < k ==> IsSchemeChar(s[j])
  {
    var i := FindAny(s, {':'}, 0);
    if 0 < i < |s| && IsAlpha(s[0]) && (forall j :: 0 <= j < i ==> IsSchemeChar(s[j])) then i else 0
  }

  /** `FindAny` stops at the first character of `stops`. */
  lemma {:induction false} FindAnyFirst(s: string, stops: set<char>, from: nat, k: nat)
    requires from <= k < |s| && s[k] in stops
    requires forall j :: from <= j < k ==> s[j] !in stops
    ensures FindAny(s, stops, from) == k
    decreases k - from
  {
    if from < k {
      FindAnyFirst(s, stops, from + 1, k);
    }
  }

  /** A scheme followed by ':' is recognised as the scheme, whatever follows it. */
  lemma {:induction false} SchemePrefix(w: string, rest: string)
    requires w != [] && IsAlpha(w[0]) && forall j :: 0 <= j < |w| ==> IsSchemeChar(w[j])
    ensures SchemeLength(w + ":" + rest) == |w|
  {
    var s := w + ":" + rest;
    assert forall j :: 0 <= j < |w| ==> s[j] == w[j];
    FindAnyFirst(s, {':'}, 0, |w|);
  }

  /** Splits the text after the authority into path, query and fragment. */
  function ParseTail(scheme: Option<string>, authority: Option<string>, rest: string): (u: Reference)
    ensures u.scheme == scheme && u.authority == authority
    ensures |u.path| <= |rest| && u.path == rest[..|u.path|]
    ensures u.path == [] ==> rest == [] || rest[0] == '?' || rest[0] == '#'
    ensures forall j :: 0 <= j < |u.path| ==> u.path[j] != '?' && u.path[j] != '#'
    ensures |u.path| < |rest| ==> rest[|u.path|] == '?' || rest[|u.path|] == '#'
  {
    var p := FindAny(rest, {'?', '#'}, 0);
    if p == |rest| then
      Reference(scheme, authority, rest, None, None)
    else if rest[p] == '?' then
      QueryTail(scheme, authority, rest, p)
    else
      Reference(scheme, authority, rest[..p], None, Some(rest[p + 1..]))
  }

  /** The query branch of `ParseTail`: a '?' at `p` starts a query that runs to the next '#'. */
  function QueryTail(scheme: Option<string>, authority: Option<string>, rest: string, p: nat): Reference
    requires p < |rest|
  {
    var q := FindAny(rest, {'#'}, p + 1);
    Reference(scheme, authority, rest[..p], Some(rest[p + 1..q]),
              if q == |rest| then None else Some(rest[q + 1..]))
  }

  /** The authority branch of `ParseHierarchy`: the authority runs from index 2 to the next '/', '?' or '#'. */
  function NetworkTail(scheme: Option<string>, rest: string): (u: Reference)
    requires |rest| >= 2
    ensures u.scheme == scheme && u.authority.Some?
  {
    var a := FindAny(rest, {'/', '?', '#'}, 2);
    ParseTail(scheme, Some(rest[2..a]), rest[a..])
  }

  /** Splits the text after the scheme: an authority follows a leading "//". */
  function ParseHierarchy(scheme: Option<string>, rest: string): (u: Reference)
    ensures u.scheme == scheme
    ensures u.authority.Some? <==> |rest| >= 2 && rest[0] == '/' && rest[1] == '/'
    ensures u.authority.None? ==> |u.path| <= |rest| && u.path == rest[..|u.path|]
    ensures u.authority.None? && u.path == [] ==> rest == [] || rest[0] == '?' || rest[0] == '#'
  {
    if |rest| >= 2 && rest[0] == '/' && rest[1] == '/' then
      NetworkTail(scheme, rest)
    else
      ParseTail(scheme, None, rest)
  }

  /** Splits a URI reference into its components. */
  function Parse(s: string): (u: Reference)
    ensures u.scheme.Some? <==> SchemeLength(s) > 0
    ensures u.scheme.Some? ==> u.scheme.value == s[..SchemeLength(s)]
  {
    var k := SchemeLength(s);
    if k > 0 then ParseHierarchy(Some(s[..k]), s[k + 1..]) else ParseHierarchy(None, s)
  }

  function SchemePart(u: Reference): string {
    if u.scheme.Some? then u.scheme.value + ":" else ""
  }

  function AuthorityPart(u: Reference): string {
    if u.authority.Some? then "//" + u.authority.value else ""
  }

  function TailPart(u: Reference): string {
    u.path
    + (if u.query.Some? then "?" + u.query.value else "")
    + (if u.fragment.Some? then "#" + u.fragment.value else "")
  }

  /** Component recomposition (section 5.3 of RFC 3986). */
  function Recompose(u: Reference): string {
    SchemePart(u) + AuthorityPart(u) + TailPart(u)
  }

  /** The directory part of a path: everything up to and including its last '/'. */
  function Directory(path: string): (d: string)
    ensures |d| <= |path| && d == path[..|d|]
    ensures d == [] || d[|d| - 1] == '/'
    ensures forall j :: |d| <= j < |path| ==> path[j] != '/'
  {
    if path == [] then []
    else if path[|path| - 1] == '/' then path
    else Directory(path[..|path| - 1])
  }

  /** Merging a relative path with the base path (section 5.2.3 of RFC 3986). */
  function MergePaths(base: Reference, path: string): string {
    if base.authority.Some? && base.path == [] then "/" + path
    else Directory(base.path) + path
  }

  /**
   * Whether the reference's own authority stands in resolution. `urljoin`
   * treats an empty authority (a reference `//` followed by '/', '?', '#' or
   * nothing) as absent when the base has an authority, and takes the base's.
   */
  predicate KeepsAuthority(base: Reference, r: Reference) {
    r.authority.Some? && (r.authority.value != [] || base.authority.None?)
  }

  /**
   * Reference resolution (section 5.2.2 of RFC 3986) in its non-strict form,
   * the one `urljoin` follows: a reference whose scheme is the base's is
   * resolved as if it had none, and so is an empty authority against a base
   * that has one (`KeepsAuthority`). Dot segments are not removed.
   */
  function ResolveReference(base: Reference, r: Reference): (t: Reference)
    ensures t.fragment == r.fragment
    ensures t.scheme == if r.scheme.Some? && r.scheme != base.scheme then r.scheme else base.scheme
  {
    if r.scheme.Some? && r.scheme != base.scheme then r
    else if KeepsAuthority(base, r) then r.(scheme := base.scheme)
    else if r.path == [] then
      r.(scheme := base.scheme, authority := base.authority, path := base.path,
         query := if r.query.Some? then r.query else base.query)
    else if r.path[0] == '/' then
      r.(scheme := base.scheme, authority := base.authority)
    else
      r.(scheme := base.scheme, authority := base.authority, path := MergePaths(base, r.path))
  }

  /**
   * `urljoin(base, ref)`: an empty base gives the reference, an empty reference
   * gives the base unchanged, anything else is resolved component-wise.
   */
  function Resolve(base: string, ref: string): (url: string)
    ensures base == [] ==> url == ref
    ensures base != [] && ref == [] ==> url == base
  {
    if base == [] then ref
    else if ref == [] then base
    else Recompose(ResolveReference(Parse(base), Parse(ref)))
  }

  /** Cutting `s` around index `i` and gluing the pieces back gives `s`. */
  lemma {:induction false} SplitAround(s: string, i: nat)
    requires i < |s|
    ensures s == s[..i] + [s[i]] + s[i + 1..]
  {
  }

  lemma {:induction false} TailRoundTrip(scheme: Option<string>, authority: Option<string>, rest: string)
    ensures TailPart(ParseTail(scheme, authority, rest)) == rest
  {
    var p := FindAny(rest, {'?', '#'}, 0);
    if p < |rest| {
      if rest[p] == '?' {
        QueryRoundTrip(scheme, authority, rest, p);
      } else {
        FragmentRoundTrip(scheme, authority, rest, p);
      }
    }
  }

  lemma {:induction false} QueryRoundTrip(scheme: Option<string>, authority: Option<string>, rest: string, p: nat)
    requires p == FindAny(rest, {'?', '#'}, 0) && p < |rest| && rest[p] == '?'
    ensures TailPart(ParseTail(scheme, authority, rest)) == rest
  {
    var q := FindAny(rest, {'#'}, p + 1);
    var u := ParseTail(scheme, authority, rest);
    assert u == QueryTail(scheme, authority, rest, p);
    QueryGlue(rest, p, q);
    if q == |rest| {
      assert TailPart(u) == rest[..p] + ("?" + rest[p + 1..q]) + "";
    } else {
      assert TailPart(u) == rest[..p] + ("?" + rest[p + 1..q]) + ("#" + rest[q + 1..]);
    }
  }

  lemma {:induction false} QueryGlue(rest: string, p: nat, q: nat)
    requires p < q <= |rest| && rest[p] == '?' && (q < |rest| ==> rest[q] == '#')
    ensures q == |rest| ==> rest[..p] + ("?" + rest[p + 1..q]) + "" == rest
    ensures q < |rest| ==> rest[..p] + ("?" + rest[p + 1..q]) + ("#" + rest[q + 1..]) == rest
  {
    SplitAround(rest, p);
    if q < |rest| {
      var after := rest[p + 1..];
      SplitAround(after, q - p - 1);
      assert after[..q - p - 1] == rest[p + 1..q];
      assert after[q - p..] == rest[q + 1..];
    }
  }

  lemma {:induction false} FragmentRoundTrip(scheme: Option<string>, authority: Option<string>, rest: string, p: nat)
    requires p == FindAny(rest, {'?', '#'}, 0) && p < |rest| && rest[p] == '#'
    ensures TailPart(ParseTail(scheme, authority, rest)) == rest
  {
    var u := ParseTail(scheme, authority, rest);
    SplitAround(rest, p);
    assert u.path == rest[..p] && u.query == None && u.fragment == Some(rest[p + 1..]);
    assert TailPart(u) == rest[..p] + "#" + rest[p + 1..];
  }

  lemma {:induction false} NetworkRoundTrip(scheme: Option<string>, rest: string)
    requires |rest| >= 2 && rest[0] == '/' && rest[1] == '/'
    ensures AuthorityPart(NetworkTail(scheme, rest)) + TailPart(NetworkTail(scheme, rest)) == rest
  {
    var a := FindAny(rest, {'/', '?', '#'}, 2);
    var t := ParseTail(scheme, Some(rest[2..a]), rest[a..]);
    assert NetworkTail(scheme, rest) == t;
    TailRoundTrip(scheme, Some(rest[2..a]), rest[a..]);
    assert AuthorityPart(t) == "//" + rest[2..a];
    assert rest == rest[..2] + rest[2..a] + rest[a..];
    assert rest[..2] == "//";
  }

  lemma {:induction false} HierarchyRoundTrip(scheme: Option<string>, rest: string)
    ensures var u := ParseHierarchy(scheme, rest);
            u.scheme == scheme && AuthorityPart(u) + TailPart(u) == rest
  {
    if |rest| >= 2 && rest[0] == '/' && rest[1] == '/' {
      assert ParseHierarchy(scheme, rest) == NetworkTail(scheme, rest);
      NetworkRoundTrip(scheme, rest);
    } else {
      assert ParseHierarchy(scheme, rest) == ParseTail(scheme, None, rest);
      TailRoundTrip(scheme, None, rest);
    }
  }

  /** Recomposition read as the scheme part followed by the rest. */
  lemma {:induction false} RecomposeSplit(u: Reference)
    ensures Recompose(u) == SchemePart(u) + (AuthorityPart(u) + TailPart(u))
  {
  }

  /** Splitting a reference and recomposing it gives the same text back. */
  lemma {:induction false} ParseRecompose(s: string)
    ensures Recompose(Parse(s)) == s
  {
    var k := SchemeLength(s);
    var u := Parse(s);
    RecomposeSplit(u);
    if k > 0 {
      assert u == ParseHierarchy(Some(s[..k]), s[k + 1..]);
      HierarchyRoundTrip(Some(s[..k]), s[k + 1..]);
      assert SchemePart(u) == s[..k] + ":";
      SplitAround(s, k);
    } else {
      assert u == ParseHierarchy(None, s);
      HierarchyRoundTrip(None, s);
    }
  }

  /** Whether `s` holds none of the characters in `stops`. */
  predicate Avoids(s: string, stops: set<char>) {
    forall j :: 0 <= j < |s| ==> s[j] !in stops
  }

  lemma {:induction false} AvoidsAppend(a: string, b: string, stops: set<char>)
    requires Avoids(a, stops) && Avoids(b, stops)
    ensures Avoids(a + b, stops)
  {
    forall j | 0 <= j < |a + b| ensures (a + b)[j] !in stops {
      if j < |a| { assert (a + b)[j] == a[j]; } else { assert (a + b)[j] == b[j - |a|]; }
    }
  }

  /** A parsed authority holds no '/', '?' or '#'. */
  lemma {:induction false} ParseAuthorityAvoids(s: string)
    ensures Parse(s).authority.Some? ==> Avoids(Parse(s).authority.value, {'/', '?', '#'})
  {
    var k := SchemeLength(s);
    var rest := if k > 0 then s[k + 1..] else s;
    if |rest| >= 2 && rest[0] == '/' && rest[1] == '/' {
      var a := FindAny(rest, {'/', '?', '#'}, 2);
      assert Parse(s).authority == Some(rest[2..a]);
    }
  }

  /**
   * A tail without a fragment parses back into its path and query: the
   * inverse of `TailPart` when the path holds no '?' or '#' and the query no '#'.
   */
  lemma {:induction false} ParsePlainTail(scheme: Option<string>, authority: Option<string>, path: string, query: Option<string>)
    requires Avoids(path, {'?', '#'})
    requires query.Some? ==> Avoids(query.value, {'#'})
    ensures ParseTail(scheme, authority, path + if query.Some? then "?" + query.value else "")
            == Reference(scheme, authority, path, query, None)
  {
    var rest := path + if query.Some? then "?" + query.value else "";
    if query.None? {
      assert rest == path;
      FindAnyNone(rest, {'?', '#'}, 0);
    } else {
      assert forall j :: 0 <= j < |path| ==> rest[j] == path[j];
      assert rest[|path|] == '?';
      FindAnyFirst(rest, {'?', '#'}, 0, |path|);
      assert forall j :: |path| + 1 <= j < |rest| ==> rest[j] == query.value[j - |path| - 1];
      FindAnyNone(rest, {'#'}, |path| + 1);
      assert ParseTail(scheme, authority, rest) == QueryTail(scheme, authority, rest, |path|);
      assert rest[..|path|] == path && rest[|path| + 1..|rest|] == query.value;
    }
  }

  /** A scheme, ':', "//" and a host parse as an origin: that scheme and host, with nothing after them. */
  lemma {:induction false} ParseOrigin(w: string, host: string)
    requires w != [] && IsAlpha(w[0]) && forall j :: 0 <= j < |w| ==> IsSchemeChar(w[j])
    requires Avoids(host, {'/', '?', '#'})
    ensures Parse(w + ":" + "//" + host) == Reference(Some(w), Some(host), "", None, None)
  {
    var rest := "//" + host;
    var s := w + ":" + rest;
    assert s == w + ":" + "//" + host;
    SchemePrefix(w, rest);
    assert s[..|w|] == w && s[|w| + 1..] == rest;
    assert forall j :: 2 <= j < |rest| ==> rest[j] == host[j - 2];
    FindAnyNone(rest, {'/', '?', '#'}, 2);
    assert rest[2..|rest|] == host && rest[|rest|..] == "";
    assert Parse(s) == ParseHierarchy(Some(w), rest) == NetworkTail(Some(w), rest);
    assert NetworkTail(Some(w), rest) == ParseTail(Some(w), Some(host), "");
    ParsePlainTail(Some(w), Some(host), "", None);
    assert "" + "" == "";
  }

  /** An origin is its scheme, ':', "//" and its authority. */
  lemma {:induction false} OriginText(base: string)
    requires var u := Parse(base); u.scheme.Some? && u.authority.Some? && u.path == [] && u.query.None? && u.fragment.None?
    ensures var w := Parse(base).scheme.value;
            && base == w + ":" + "//" + Parse(base).authority.value
            && w != [] && IsAlpha(w[0]) && (forall j :: 0 <= j < |w| ==> IsSchemeChar(w[j]))
            && Avoids(Parse(base).authority.value, {'/', '?', '#'})
  {
    ParseRecompose(base);
    ParseAuthorityAvoids(base);
  }

  /**
   * Appending an absolute path (or nothing) to an origin, a URL that is only
   * a scheme and an authority, leaves the scheme and authority as they were
   * and parses the appended text as the tail.
   */
  lemma {:induction false} ParseOriginTail(base: string, tail: string)
    requires var u := Parse(base); u.scheme.Some? && u.authority.Some? && u.path == [] && u.query.None? && u.fragment.None?
    requires tail == [] || tail[0] == '/'
    ensures Parse(base + tail) == ParseTail(Parse(base).scheme, Parse(base).authority, tail)
  {
    var w := Parse(base).scheme.value;
    var host := Parse(base).authority.value;
    OriginText(base);
    var rest := "//" + host + tail;
    var url := base + tail;
    assert url == w + ":" + rest;
    SchemePrefix(w, rest);
    assert url[..|w|] == w && url[|w| + 1..] == rest;
    var a := 2 + |host|;
    assert forall j :: 2 <= j < a ==> rest[j] == host[j - 2];
    if tail == [] {
      FindAnyNone(rest, {'/', '?', '#'}, 2);
    } else {
      assert rest[a] == tail[0];
      FindAnyFirst(rest, {'/', '?', '#'}, 2, a);
    }
    assert rest[2..a] == host && rest[a..] == tail;
  }

  /**
   * An absolute reference resolves to itself when its scheme differs from the
   * base's or its authority stands.
   */
  lemma {:induction false} ResolveAbsolute(base: string, ref: string)
    requires base != [] && SchemeLength(ref) > 0
    requires Parse(ref).scheme != Parse(base).scheme || KeepsAuthority(Parse(base), Parse(ref))
    ensures Resolve(base, ref) == ref
  {
    ParseRecompose(ref);
    assert ResolveReference(Parse(base), Parse(ref)) == Parse(ref);
  }

  /**
   * A network-path reference `//host/p` takes the scheme of the base and keeps
   * everything else, when its host is non-empty or the base has no authority.
   */
  lemma {:induction false} ResolveNetworkPath(base: string, ref: string)
    requires SchemeLength(base) > 0
    requires |ref| >= 2 && ref[0] == '/' && ref[1] == '/'
    requires (|ref| > 2 && ref[2] != '/' && ref[2] != '?' && ref[2] != '#') || Parse(base).authority.None?
    ensures Resolve(base, ref) == base[..SchemeLength(base)] + ":" + ref
  {
    assert SchemeLength(ref) == 0;
    var r := Parse(ref);
    assert r == ParseHierarchy(None, ref);
    HierarchyRoundTrip(None, ref);
    assert r.authority.Some?;
    var b := Parse(base);
    if b.authority.Some? {
      assert r.authority.value == ref[2..FindAny(ref, {'/', '?', '#'}, 2)];
    }
    var t := ResolveReference(b, r);
    assert t == r.(scheme := b.scheme);
    RecomposeSplit(t);
    assert SchemePart(t) == base[..SchemeLength(base)] + ":";
    assert AuthorityPart(t) + TailPart(t) == AuthorityPart(r) + TailPart(r);
  }

  /**
   * An absolute-path reference `/p` keeps the base's scheme and authority and
   * replaces everything after them.
   */
  lemma {:induction false} ResolveAbsolutePath(base: string, ref: string)
    requires Parse(base).authority.Some?
    requires base != [] && ref != [] && ref[0] == '/' && (|ref| < 2 || ref[1] != '/')
    ensures Resolve(base, ref) == SchemePart(Parse(base)) + AuthorityPart(Parse(base)) + ref
  {
    assert SchemeLength(ref) == 0;
    var r := Parse(ref);
    assert r == ParseHierarchy(None, ref);
    HierarchyRoundTrip(None, ref);
    assert r.authority.None? && r.path != [] && r.path[0] == '/';
    assert TailPart(r) == ref;
    var b := Parse(base);
    var t := ResolveReference(b, r);
    assert t == r.(scheme := b.scheme, authority := b.authority);
    assert TailPart(t) == TailPart(r);
  }

  /**
   * Against a base with an authority, an empty authority is dropped: `//`
   * followed by a path, query or fragment resolves as that text alone.
   */
  lemma {:induction false} ResolveEmptyAuthority(base: string, rest: string)
    requires base != [] && Parse(base).authority.Some?
    requires rest != [] && (rest[0] == '/' || rest[0] == '?' || rest[0] == '#')
    requires |rest| < 2 || rest[0] != '/' || rest[1] != '/'
    ensures Resolve(base, "//" + rest) == Resolve(base, rest)
  {
    var ref := "//" + rest;
    assert SchemeLength(ref) == 0 && SchemeLength(rest) == 0;
    FindAnyFirst(ref, {'/', '?', '#'}, 2, 2);
    assert ref[2..] == rest;
    var r := Parse(ref);
    assert r == NetworkTail(None, ref) == ParseTail(None, Some(ref[2..2]), ref[2..]);
    assert ref[2..2] == "";
    var r0 := Parse(rest);
    assert r0 == ParseTail(None, None, rest);
    assert r == r0.(authority := Some(""));
    var b := Parse(base);
    assert !KeepsAuthority(b, r);
  }

  /** Against a base that has a scheme, every non-empty reference resolves to an absolute URL. */
  lemma {:induction false} ResolveKeepsScheme(base: string, ref: string)
    requires SchemeLength(base) > 0
    ensures Resolve(base, ref) == Recompose(ResolveReference(Parse(base), Parse(ref))) || ref == []
    ensures ref != [] ==> ResolveReference(Parse(base), Parse(ref)).scheme.Some?
    ensures ref != [] ==> SchemeLength(Resolve(base, ref)) > 0
  {
    if ref != [] {
      var t := ResolveReference(Parse(base), Parse(ref));
      var w := t.scheme.value;
      assert w == ref[..SchemeLength(ref)] || w == base[..SchemeLength(base)];
      assert w != [] && IsAlpha(w[0]) && forall j :: 0 <= j < |w| ==> IsSchemeChar(w[j]);
      RecomposeSplit(t);
      SchemePrefix(w, AuthorityPart(t) + TailPart(t));
    }
  }
}

=== FILE: wrappers.dfy ===
/** Optional values: Python's `None` versus a present value. */
module Wrappers {

  datatype Option<+T> = None | Some(value: T) {

    /** The value, or `default` when absent (Python's `x if x is not None else default`). */
    function GetOr(default: T): T {
      match this
      case Some(v) => v
      case None => default
    }
  }
}
